=== FILE: README.md ===
# Session, credential and ownership decisions of social-auth-server

This project models, in Dafny, the request-level decision procedures of an
Express/TypeScript backend that issues, checks and silently refreshes JWT
credentials, federates logins to Google and Facebook, and guards a small
product API by ownership. Every handler and middleware is a pure function
from an immutable request, configuration and store to an outcome and the
store after it. Cryptography, the database and the HTTP calls to the
providers are abstracted away:

- token verification is an oracle `verify: string -> Verification` that yields
  the decoded claims (or none) and whether the token failed only by expiry;
- token re-issue is an oracle `reIssue: string -> Option<string>`;
- token signing is an oracle `sign: (Payload, ttl) -> string`;
- password comparison is an oracle `compare: (UserDoc, string) -> bool`;
- the zod email format is an oracle `isEmail: string -> bool`;
- the provider token exchange and profile fetch are oracles returning
  `Option<...>` (`None` when the call throws);
- the outcome of the OAuth user upsert at the storage layer is an input
  `UpsertReply` (`Upserted`, `NullDocument` or `StoreUnavailable`).

Users and sessions are append-only sequences and a record's id is its
position, so a created record always has an id no other record has.
Products are a map from `productId` (a unique index) to the product.

Modules, one per source file or component:

- `Wrappers` (`wrappers.dfy`): `Option` and JavaScript string truthiness.
- `Domain` (`domain.dfy`): users, sessions, products, token claims, configuration.
- `Http` (`http.dfy`): cookies, cookie options, response bodies, responses.
- `Resolver` (`resolver.dfy`): the `deserializeUser` middleware.
- `Sessions` (`session_store.dfy`): the session collection operations the controllers use.
- `UserService` (`user_service.dfy`): password validation, user creation, the
  upsert keyed by email, the OAuth token-request form.
- `SessionController` (`session_controller.dfy`): login, listing, logout, OAuth callbacks.
- `ProductController` (`product_controller.dfy`): create/get/update/delete with ownership checks.
- `Zod` (`zod.dfy`), `SessionSchema` (`session_schema.dfy`), `ProductSchema`
  (`product_schema.dfy`): the request validators.
- `OAuthClaims` (`oauth_claims.dfy`): the OAuth callbacks' token claims as the code
  writes them, against the claims the rest of the model signs.

Behaviours of the code that the model keeps, some of which a reader may not
expect:

- logout sends `{accessToken: null, refreshToken: null}` in the body but does
  not clear or overwrite either cookie;
- the Facebook callback has no top-level catch, so failed provider calls and
  storage errors reject its promise instead of redirecting to the error page;
  its missing-email rejection reuses the text `Google account not verified`;
- the resolver never looks at the session store itself: whether an expired
  token is refreshed is decided entirely by the re-issue service;
- password login signs the password-stripped record; the OAuth callbacks sign
  `{...user, session}` where `user` is a hydrated Mongoose document, and
  spreading it copies the document's own properties (its record under `_doc`)
  instead of the user's fields, so those claims have no top-level `_id`,
  `email` or `name`. The model signs the upserted record's own fields there
  (see "## Findings");
- an owner's product update applies the whole request body, so a `user` key
  in it reassigns the product and a new `productId` renames it.

## Model

| member | source | states |
|---|---|---|
| Resolver.AccessToken | src/middleware/deserializeUser.ts:8 | The access token is the `accessToken` cookie when it is non-empty; otherwise the `authorization` header (default empty) with exactly one leading `Bearer` plus one white-space character removed, and a header without that prefix is used verbatim. |
| Resolver.BearerHeaderRoundTrip | src/middleware/deserializeUser.ts:8 | For every token and every `\s` character, a header `Bearer<space><token>` with no cookie yields exactly the token. |
| Resolver.BearerStrippedOnce | src/middleware/deserializeUser.ts:8 | Only the leading prefix is removed: `Bearer Bearer t` yields `Bearer t`. |
| Resolver.Resolve | src/middleware/deserializeUser.ts:7-44 | `next()` is called exactly once on every path; no token means no verification, re-issue, header, cookie or user; a decodable token becomes the user with no refresh attempt; re-issue is asked for exactly when the token has expired and `x-refresh` is non-empty; header and cookie are set exactly when re-issue yields a token, both to that token, the cookie with maxAge 900000, httpOnly and sameSite strict, and the user is the new token's decoded form; any attached user was decoded from a token the resolver verified. A user is attached only when the access token decodes or a re-issued token was set. |
| Resolver.TamperedTokenIsAnonymous | src/middleware/deserializeUser.ts:16-43 | A token that neither decodes nor has expired never triggers re-issue and ends with no user. |
| Resolver.FailedRefreshIsAnonymous | src/middleware/deserializeUser.ts:22-43 | An undecodable token with an empty refresh header, or whose re-issue yields nothing, ends with no user, no header and no cookie. |
| Resolver.RefreshIgnoredForValidAccess | src/middleware/deserializeUser.ts:14-19 | When the access token decodes, the outcome is the same whatever the `x-refresh` header holds. |
| Resolver.ReissuedCookieAuthenticatesNextRequest | src/middleware/deserializeUser.ts:25-40 | The cookie set by a silent refresh, sent back on the next request, yields the same user without another re-issue (when the new token decodes). |
| Sessions.Create | src/controller/session.controller.ts:33 | Session creation appends exactly one valid session for the user and agent, under an id no earlier session has, leaving the others untouched. |
| Sessions.Invalidate | src/controller/session.controller.ts:65 | Only the session with the given id becomes invalid; every other session is unchanged, and an unknown id changes nothing. |
| Sessions.Active | src/controller/session.controller.ts:58 | The query `{user, valid: true}` returns exactly the valid sessions of that user, each once with its own id; the model lists them in creation order, an order the query itself does not promise. |
| Sessions.CreateIsSuccessor | src/controller/session.controller.ts:33 | Creating a session deletes nothing, changes no owner or agent and revalidates nothing. |
| Sessions.InvalidateIsSuccessor | src/controller/session.controller.ts:65 | Invalidation deletes nothing, changes no owner or agent and never makes a session valid. |
| Sessions.InvalidateIdempotent | src/controller/session.controller.ts:65 | Invalidating twice equals invalidating once. |
| Sessions.InvalidatedNotListed | src/controller/session.controller.ts:57-65 | After invalidation the session is listed for no user, while every other valid session of the user is still listed. |
| UserService.FindByEmail | src/service/user.service.ts:22 | The lookup returns the first user with the email, or nothing exactly when no user has it. |
| UserService.Omit | src/service/user.service.ts:30 | Omitting the password removes that field and keeps every other field: restoring it gives back the original document. |
| UserService.ValidatePassword | src/service/user.service.ts:20-34 | The result is a user exactly when the first user with the email passes the password comparison; it is then that user's document without its password; with no user of that email it is `false`. |
| UserService.CreateUser | src/service/user.service.ts:10-18 | Creation fails (the storage error is rethrown) exactly when the email is taken; otherwise one user is appended and returned without its password, the stored record keeping it. |
| UserService.Upsert | src/controller/session.controller.ts:92-101 | The upsert keyed by email updates name and picture of the existing user (same id, password kept, others untouched) or appends a new password-less user. |
| UserService.UpsertKeepsEmailsUnique | src/service/user.service.ts:99-102 | The upsert never creates a second user with the same email. |
| UserService.UpsertIdempotent | src/controller/session.controller.ts:92-101 | Repeating an upsert with the same fields changes nothing and returns the same user. |
| UserService.TokenRequestForm | src/service/user.service.ts:51-57 | The token request form holds exactly `code` (dropped when absent), `client_id`, `client_secret`, `redirect_uri` and `grant_type=authorization_code`, in that order, with the client's values. |
| UserService.TokenRequestRoundTrip | src/service/user.service.ts:114-120 | A token endpoint reading the form recovers exactly the code and the client that built it, and finds no valid request when the code was absent. |
| SessionController.RefreshCookieOptions | src/controller/session.controller.ts:20-23 | The refresh cookie options equal the access cookie options except for maxAge, which is 31540000000 instead of 900000. |
| SessionController.AccessCookieOptions | src/controller/session.controller.ts:11-18 | The access cookie lives 900000 ms, is `httpOnly` with path `/`, and its domain, `sameSite` (strict or lax) and `secure` follow the production switch. |
| SessionController.StartSession | src/controller/session.controller.ts:33-50 | A login creates one valid session for the user with the request's agent (or empty), signs the access and refresh tokens over the same claims (the user plus that session's id) with the access and refresh TTLs, and sets exactly those tokens as the two cookies. |
| SessionController.Login | src/controller/session.controller.ts:25-54 | A failed password check gives 401 `Invalid email or password` with no session and no cookie; otherwise exactly one session is created for the validated user and the body returns the very tokens set as cookies. |
| SessionController.ListSessions | src/controller/session.controller.ts:56-61 | The listing holds exactly the sessions whose user is the caller and which are valid, each once. |
| SessionController.Logout | src/controller/session.controller.ts:63-71 | Logout marks only the caller's own session invalid, answers `{accessToken: null, refreshToken: null}` and sets no cookie. |
| SessionController.LogoutIdempotent | src/controller/session.controller.ts:63-71 | Logging out twice equals logging out once, response included. |
| SessionController.LogoutEndsListing | src/controller/session.controller.ts:57-65 | After logout the caller's session no longer appears in the caller's listing. |
| SessionController.LoginThenList | src/controller/session.controller.ts:33-58 | The session a successful login creates is listed for the logged-in user. |
| SessionController.CompleteFederatedLogin | src/controller/session.controller.ts:91-127 | After the email gate: a storage error propagates, a null document gives 403 `User not found` with nothing stored, and a successful upsert logs the upserted user in and redirects to the client origin. |
| SessionController.GoogleProfile | src/controller/session.controller.ts:76-85 | A failed token exchange (sent the authorization-code form for the Google client) yields no profile; otherwise the profile is the one fetched with the exchanged id and access tokens. |
| SessionController.GoogleOauth | src/controller/session.controller.ts:73-132 | The Google callback never raises; provider or storage failures redirect to `<origin>/oauth/error` with nothing stored; an unverified email gives 403 `Google account not verified` before any upsert or session; a verified profile whose upsert returns no document gives 403 `User not found`; the stores change only on a verified profile with a successful upsert, which ends in a redirect to the origin. |
| SessionController.FacebookProfile | src/controller/session.controller.ts:136-142 | A failed token exchange (sent the authorization-code form for the Facebook client) yields no profile; otherwise the profile is the one fetched with the exchanged access token. |
| SessionController.FacebookOauth | src/controller/session.controller.ts:134-187 | The Facebook callback raises exactly on a failed provider call or, with an email present, a storage error; a missing or empty email gives 403 before any upsert or session; the stores change only with an email and a successful upsert, which ends in a redirect to the origin. |
| SessionController.LoggedInIsSuccessor | src/controller/session.controller.ts:33 | A completed login only appends a session. |
| SessionController.LoginLogoutNeverRevalidate | src/controller/session.controller.ts:25-71 | Neither login nor logout deletes a session, changes its owner or agent, or makes an invalid session valid. |
| SessionController.GoogleNeverRevalidates | src/controller/session.controller.ts:73-132 | The Google callback never deletes a session, changes its owner or agent, or makes an invalid session valid. |
| SessionController.FacebookNeverRevalidates | src/controller/session.controller.ts:134-187 | The Facebook callback never deletes a session, changes its owner or agent, or makes an invalid session valid. |
| ProductController.CreateProduct | src/controller/Product.controller.ts:8-19 | A created product's owner is always the caller, whatever `user` the body holds, and its other fields are the body's; a taken `productId` gives 403 with the store unchanged. |
| ProductController.GetProduct | src/controller/Product.controller.ts:21-30 | Lookup answers 404 exactly when the product is absent and otherwise 200 with the stored product. |
| ProductController.Updated | src/controller/Product.controller.ts:40-52 | The stored product takes every validated body field, and its owner changes exactly when the body names a different `user`. |
| ProductController.UpdateProduct | src/controller/Product.controller.ts:33-55 | A missing product gives 404 before any ownership check; a non-owner gets 403; neither changes the store; the owner's update changes only that product and returns it updated, and renaming onto another product's id raises. |
| ProductController.DeleteProduct | src/controller/Product.controller.ts:57-74 | Deletion answers 404 for a missing product, then 403 for a non-owner, removing nothing; the owner's deletion removes exactly that product and answers 201 with it as it was. |
| ProductController.CreateThenGet | src/controller/Product.controller.ts:12-29 | A created product is then found under its id, owned by its creator. |
| ProductController.DeleteThenGet | src/controller/Product.controller.ts:61-73 | After its owner deletes it, lookup answers 404 and a second deletion answers 404 without changing the store. |
| ProductController.NonOwnerChangesNothing | src/controller/Product.controller.ts:46-69 | A non-owner's update or deletion leaves the whole store unchanged. |
| ProductController.UpdateCanReassignOwner | src/controller/Product.controller.ts:40-52 | An owner's update whose body carries another `user` hands the product over, after which the former owner's update is refused with 403. |
| Zod.Utf16Length | src/schema/session.schema.ts:7 | String length is counted in UTF-16 code units: between the number of characters and twice that. |
| Zod.Utf16LengthOfBmp | src/schema/session.schema.ts:7 | For text inside the Basic Multilingual Plane the length is the number of characters. |
| Zod.CheckIssues | src/schema/session.schema.ts:7-10 | There is no issue exactly when every chained check passes, each failing check contributes its own issue at the field, and every issue reported belongs to a failing check. |
| Zod.StringIssues | src/schema/session.schema.ts:5-10 | A string field reports its required message when missing, a type issue when not a string, and otherwise exactly the failing checks; no issue exactly when it is a string passing every check. |
| Zod.NumberIssues | src/schema/product.schema.ts:14-16 | A number field reports its required message when missing and a type issue when not a number; no issue exactly when it is a number. |
| SessionSchema.CreateSessionIssues | src/schema/session.schema.ts:3-12 | The login body passes exactly when the password is a string of at least 6 characters and the email a string in email format; a missing password or email reports its required message, a short password and a malformed email their own messages; each field is checked on its own, reporting nothing at its path exactly when it meets its rule. |
| SessionSchema.ParseLogin | src/schema/session.schema.ts:3-14 | A typed login body is produced exactly when the schema reports no issue, and it is the body that was sent. |
| SessionSchema.ParseLoginRoundTrip | src/schema/session.schema.ts:3-12 | Every login body meeting the rules survives being sent and parsed. |
| SessionSchema.PasswordLengthBoundary | src/schema/session.schema.ts:7 | A 6-character password passes the length rule and a 5-character one fails it. |
| ProductSchema.PayloadIssues | src/schema/product.schema.ts:3-21 | The product body passes exactly when all five fields are present, `price` is a number, the others are strings and the description has at least 120 characters; each missing field reports its own required message, a short description and a non-number price their issues. |
| ProductSchema.PayloadIssuesPerField | src/schema/product.schema.ts:3-21 | Each of the five body fields is checked on its own: it reports nothing at its path exactly when it meets its own rule, whatever the other fields hold. |
| ProductSchema.ParamsIssues | src/schema/product.schema.ts:23-29 | The route parameter passes exactly when `productId` is a string, and reports `ProductId is required` when missing. |
| ProductSchema.CreateProductIssues | src/schema/product.schema.ts:31-33 | The create schema passes exactly when the body passes. |
| ProductSchema.UpdateProductIssues | src/schema/product.schema.ts:35-38 | The update schema passes exactly when the body passes and `productId` is a string parameter; a missing parameter is the last issue reported. |
| ProductSchema.DeleteProductIssues | src/schema/product.schema.ts:40-42 | The delete schema passes exactly when `productId` is a string parameter, and reports only `ProductId is required` when it is missing. |
| ProductSchema.GetProductIssues | src/schema/product.schema.ts:44-46 | The get schema passes exactly when `productId` is a string parameter, and reports only `ProductId is required` when it is missing. |
| ProductSchema.CreateIgnoresParams | src/schema/product.schema.ts:31-33 | The create schema's verdict depends on the body alone. |
| ProductSchema.UpdateIsCreateAndDelete | src/schema/product.schema.ts:35-38 | The update schema reports the body's issues followed by the parameter's, and passes exactly when both would. |
| ProductSchema.DeleteAndGetIgnoreBody | src/schema/product.schema.ts:40-46 | The delete and get schemas depend on `params.productId` alone and ignore the body. |
| ProductSchema.ParseProduct | src/schema/product.schema.ts:3-21 | A typed product is produced exactly when the body passes, and it is the body that was sent. |
| ProductSchema.ParseProductRoundTrip | src/schema/product.schema.ts:3-21 | Every product meeting the rules survives being sent and parsed. |
| OAuthClaims.SpreadDocument | src/controller/session.controller.ts:111-120 | The claims of `{...user, session}` for a hydrated document keep the record only under `_doc` and have no top-level `_id`, `email` or `name`. |
| OAuthClaims.OwnerGate | src/controller/Product.controller.ts:37-48 | The update and delete handlers answer 404 for an unknown product, 403 unless `res.locals.user._id` is present and equals the owner, and proceed otherwise. |
| OAuthClaims.SpreadClaimsLockOutOwner | src/controller/Product.controller.ts:46-48 | With the claims as the OAuth callbacks write them, the owner gate refuses the caller even on a product stored under their own id. |
| OAuthClaims.FederatedClaimsKeepOwnership | src/controller/session.controller.ts:107-127 | With the claims this model signs, the access cookie carries the upserted user's id and email, and that user passes the owner gate, is not refused an update, and deletes their own product with 201. |

## Left out

- JWT signing and verification (`utils/jwt.utils`) and bcrypt `comparePassword`: cryptography and clocks are oracles, so nothing about expiry arithmetic or signatures is proved.
- `reIssueAccessToken` (`service/session.service`) is not part of this model: the check that the refresh token's session is still valid lives there, so revocation is an assumption about that oracle, not a proved property of the resolver.
- Resolver.Resolve: the re-issue oracle is total; a rejected re-issue promise (a storage error inside the session service) would escape the async middleware and is not modelled.
- Mongoose and MongoDB: stores are sequences and maps; storage errors are modelled only where a handler's behaviour depends on them (duplicate `productId` at creation and update, duplicate email at user creation, the OAuth upsert reply). A failing `findOne`, `createSession`, `findProduct` or `deleteProduct` is not modelled.
- SessionController.CompleteFederatedLogin: the claims signed are the upserted record's own fields (id, email, name, picture, password); the code's claims, the spread of a hydrated Mongoose document, carry those fields only under `_doc` and lack a top-level `_id`, `email` and `name` (see "## Findings"). What `findSessions({user: undefined, valid: true})` and `createProduct({...body, user: undefined})` then do depends on the Mongoose version and the product schema, and is not modelled.
- UserService.Upsert: a field the update leaves `undefined` (Facebook's `picture`, which `fields=id,name,email` never returns) is assumed to clear the stored value, as Mongoose 5 does by casting it to `null`; Mongoose 6 drops `undefined` keys from updates and would keep a picture stored by an earlier Google login. The repository does not pin the version.
- The HTTP calls to Google and Facebook (axios): their results are inputs that may be absent; timeouts and response shapes are not modelled.
- `qs.stringify` percent-encoding: the form is the ordered list of key/value pairs before encoding.
- `validateResource` is not part of this model; the controllers receive the validated fields, plus the `user` key a client may add to a product body.
- `requireUser` and `src/routes.ts`: the handlers behind `requireUser` take the caller's claims as a parameter, which is the precondition that middleware establishes; `src/app.ts:23` runs the resolver before every route.
- `src/app.ts` bootstrap, CORS, `cookieParser`, the database connection, logging and `console.log`.
- Zod's email regular expression: an abstract `isEmail` predicate; JSON `NaN` prices cannot occur in the model.
- Cookies holding JSON (`j:` prefix), repeated headers and repeated `?code=` parameters: every such value is modelled as one string.
- Sessions.Active: lists the matching sessions in creation order; `findSessions` has no sort and MongoDB's natural order is unspecified, so any order the query returns is possible and the model fixes one.
- `async`/`await`: every handler is one sequential step; there is no concurrency to verify, and two requests refreshing with the same tokens are two independent evaluations of a pure function.

## Findings

| source | as written | input that shows it | evidently intended | confidence | as-written member | corrected member |
|---|---|---|---|---|---|---|
| src/controller/session.controller.ts:111-120 | The OAuth callbacks sign `{...user, session}` over a hydrated Mongoose document, whose `_id`, `email` and `name` are prototype getters that the spread does not copy, so `res.locals.user._id` is `undefined` and `String(product.user) !== userId` (src/controller/Product.controller.ts:46,67) always holds. | A user who logs in through Google and then updates or deletes a product stored under their own id gets 403. | The claims carry the user's own fields, as password login's do, so the owner passes the check. | medium, not executed | OAuthClaims.SpreadClaimsLockOutOwner | OAuthClaims.FederatedClaimsKeepOwnership |

=== FILE: domain.dfy ===
/** Entities shared by the middleware, the controllers and the services.

    Users and sessions live in append-only collections and a record's id is
    its position in the collection, so a freshly created record always has an
    id no other record has. Products are keyed by their `productId`. */
module Domain {
  import opened Wrappers

  type UserId = nat
  type SessionId = nat

  /** A stored user. `password` is `None` when the document has no password
      field (a user created by an OAuth upsert). */
  datatype User = User(email: string, name: string, picture: Option<string>, password: Option<string>)

  type UserStore = seq<User>

  /** The JSON form of a user document: its fields plus its `_id`. */
  datatype UserDoc = UserDoc(id: UserId, email: string, name: string, picture: Option<string>, password: Option<string>)

  function DocAt(users: UserStore, id: UserId): (d: UserDoc)
    requires id < |users|
    ensures d.id == id && d.email == users[id].email && d.password == users[id].password
  {
    var u := users[id];
    UserDoc(id, u.email, u.name, u.picture, u.password)
  }

  /** The claims signed into both tokens of a login: the user's fields plus
      the id of the session the login created. */
  datatype Payload = Payload(user: UserDoc, session: SessionId)

  /** A login session: the user, the client's user agent and whether it is
      still usable for refreshing access tokens. */
  datatype Session = Session(user: UserId, userAgent: string, valid: bool)

  type SessionStore = seq<Session>

  /** A session document as returned by a query: its `_id` and its fields. */
  datatype SessionEntry = SessionEntry(id: SessionId, session: Session)

  datatype Product = Product(productId: string, user: UserId, title: string, description: string, price: real, image: string)

  type ProductStore = map<string, Product>

  /** The credentials registered with an OAuth provider. */
  datatype OAuthClient = OAuthClient(clientId: string, clientSecret: string, redirectUri: string)

  /** Deployment configuration: whether `NODE_ENV` is `production`, and the
      values read through `config.get`. */
  datatype Config = Config(
    production: bool,
    cookieDomain: string,
    clientOrigin: string,
    accessTokenTtl: string,
    refreshTokenTtl: string,
    google: OAuthClient,
    facebook: OAuthClient)
}

=== FILE: http.dfy ===
/** The observable parts of an HTTP response: status, body, cookies set and
    the redirect target. */
module Http {
  import opened Wrappers
  import opened Domain

  datatype SameSite = Strict | Lax

  datatype CookieOptions = CookieOptions(maxAge: nat, httpOnly: bool, domain: string, path: string, sameSite: SameSite, secure: bool)

  datatype Cookie = Cookie(name: string, value: string, options: CookieOptions)

  datatype Body =
    | NoBody
    | Text(text: string)
    | Tokens(accessToken: Option<string>, refreshToken: Option<string>)
    | SessionList(entries: seq<SessionEntry>)
    | ProductDoc(product: Product)
    | ErrorDoc(reason: string)

  datatype Response = Response(status: nat, body: Body, cookies: seq<Cookie>, location: Option<string>)

  /** `res.status(status).send(body)`; a bare `res.send` is status 200. */
  function Send(status: nat, body: Body): Response {
    Response(status, body, [], None)
  }

  /** `res.redirect(url)` after the given cookies were set. */
  function Redirect(url: string, cookies: seq<Cookie>): Response {
    Response(302, NoBody, cookies, Some(url))
  }

  /** The cookie domain: the configured one in production, `localhost` otherwise. */
  function CookieDomain(cfg: Config): string {
    if cfg.production then cfg.cookieDomain else "localhost"
  }
}

=== FILE: oauth_claims.dfy ===
/** The OAuth callbacks' token claims as the code writes them, set against
    the claims the rest of this model signs.

    `findAndUpdateGoogleUser` resolves to a hydrated Mongoose document. The
    object spread `{...user, session}` copies only the document's own
    properties: the record sits under `_doc`, while `_id`, `email` and
    `name` are getters on the model's prototype and are not copied. A
    caller who logged in through Google or Facebook therefore has no
    `res.locals.user._id`, and the product controller's owner check
    `String(product.user) !== userId` compares a string with `undefined`. */
module OAuthClaims {
  import opened Wrappers
  import opened Domain
  import opened Http
  import opened UserService
  import SessionController
  import ProductController

  /** The claims of `{...user, session}` for a hydrated document: the stored
      record nested under `_doc`, no top-level `_id`, `email` or `name`. */
  datatype SpreadClaims = SpreadClaims(nested: UserDoc, id: Option<UserId>, email: Option<string>, name: Option<string>,
                                       session: SessionId)

  /** As written: spreading the upserted document. */
  function SpreadDocument(doc: UserDoc, session: SessionId): (c: SpreadClaims)
    ensures c.nested == doc && c.session == session
    ensures c.id.None? && c.email.None? && c.name.None?
  {
    SpreadClaims(doc, None, None, None, session)
  }

  /** The 404/403 gate that `ProductController.UpdateProduct` and
      `ProductController.DeleteProduct` encode, restated with `userId`
      optional because the `_id` claim may be missing: 404 for an unknown
      product, 403 when `String(product.user) !== userId`, otherwise 200
      (the handler goes on). */
  function OwnerGate(products: ProductStore, productId: string, userId: Option<UserId>): (status: nat)
    ensures status == 404 <==> productId !in products
    ensures status == 200 <==> productId in products && userId == Some(products[productId].user)
    ensures status == 404 || status == 403 || status == 200
  {
    if productId !in products then 404
    else if userId.None? || products[productId].user != userId.value then 403
    else 200
  }

  /** As written: an OAuth caller is refused every existing product, the
      ones stored under their own id included. */
  lemma SpreadClaimsLockOutOwner(doc: UserDoc, session: SessionId, productId: string, products: ProductStore)
    requires productId in products && products[productId].user == doc.id
    ensures OwnerGate(products, productId, SpreadDocument(doc, session).id) == 403
  {
  }

  /** As intended, and as `SessionController.CompleteFederatedLogin` signs
      them: the claims name the upserted user, so that user passes the
      owner gate on their own products, and updating or deleting one is not
      refused. */
  lemma FederatedClaimsKeepOwnership(email: string, name: string, picture: Option<string>, userAgent: Option<string>,
                                     users: UserStore, sessions: SessionStore, cfg: Config, sign: (Payload, string) -> string,
                                     productId: string, body: ProductController.ProductBody, products: ProductStore)
    requires productId in products
    ensures var (users', id) := Upsert(users, email, name, picture);
            var claims := Payload(DocAt(users', id), |sessions|);
            var r := SessionController.CompleteFederatedLogin(email, name, picture, userAgent, users, sessions, cfg, SessionController.Upserted, sign);
            && r.response.cookies[0].value == sign(claims, cfg.accessTokenTtl)
            && claims.user.id == id && claims.user.email == email
            && (products[productId].user == id ==>
                  && OwnerGate(products, productId, Some(claims.user.id)) == 200
                  && ProductController.UpdateProduct(claims, productId, body, products) != ProductController.Responded(Send(403, Text("Forbidden")), products)
                  && ProductController.DeleteProduct(claims, productId, products).response.status == 201)
  {
  }
}

=== FILE: product_controller.dfy ===
/** The product controller: creation, lookup, update and deletion, with the
    ownership checks the last two make. The product collection is a map from
    `productId` (a unique index) to the product. */
module ProductController {
  import opened Wrappers
  import opened Domain
  import opened Http
  import opened ProductSchema

  /** A request body: the fields the schema validated plus, possibly, a
      `user` key the schema does not look at but which reaches the store. */
  datatype ProductBody = ProductBody(fields: ProductInput, user: Option<UserId>)

  /** A handler either responds (with the store after it) or its promise
      rejects with an error nothing catches. */
  datatype Outcome = Responded(response: Response, products: ProductStore) | Raised(reason: string)

  /** `createProductHandler`: `{...body, user: userId}` is stored; a storage
      failure (a `productId` already taken) is answered with 403. */
  function CreateProduct(caller: Payload, body: ProductBody, products: ProductStore): (r: Outcome)
    ensures r.Responded?
    ensures r.response.status == 403 <==> body.fields.productId in products
    ensures r.response.status == 403 ==> r.products == products && r.response.body.ErrorDoc?
    ensures r.response.status != 403 ==> r.response.status == 200 && r.response.body.ProductDoc?
    ensures r.response.status != 403 ==>
              var p := r.response.body.product;
              && p.user == caller.user.id
              && p.productId == body.fields.productId && p.title == body.fields.title
              && p.description == body.fields.description && p.price == body.fields.price && p.image == body.fields.image
              && r.products == products[p.productId := p]
  {
    var f := body.fields;
    if f.productId in products then
      Responded(Send(403, ErrorDoc("E11000 duplicate key error: productId")), products)
    else
      var p := Product(f.productId, caller.user.id, f.title, f.description, f.price, f.image);
      Responded(Send(200, ProductDoc(p)), products[f.productId := p])
  }

  /** `getProductHandler`. */
  function GetProduct(productId: string, products: ProductStore): (r: Response)
    ensures r.status == 200 || r.status == 404
    ensures r.status == 404 <==> productId !in products
    ensures r.status == 404 ==> r.body == Text("you F-ed up")
    ensures r.status == 200 ==> r.body == ProductDoc(products[productId])
  {
    if productId !in products then Send(404, Text("you F-ed up"))
    else Send(200, ProductDoc(products[productId]))
  }

  /** The product after `findAndUpdateProduct({productId}, body)`: every body
      field replaces the stored one, including `user` when the body has it. */
  function Updated(p: Product, body: ProductBody): (u: Product)
    ensures u.productId == body.fields.productId && u.title == body.fields.title
    ensures u.description == body.fields.description && u.price == body.fields.price && u.image == body.fields.image
    // the owner changes exactly when the body names a different user
    ensures body.user.Some? ==> u.user == body.user.value
    ensures u.user != p.user <==> body.user.Some? && body.user.value != p.user
  {
    Product(body.fields.productId, body.user.GetOr(p.user), body.fields.title, body.fields.description,
            body.fields.price, body.fields.image)
  }

  /** `updateProductHandler`: 404 before 403 before the update. */
  function UpdateProduct(caller: Payload, productId: string, body: ProductBody, products: ProductStore): (r: Outcome)
    // existence is checked first, then ownership; neither failure touches the store
    ensures productId !in products ==> r == Responded(Send(404, Text("Not Found")), products)
    ensures productId in products && products[productId].user != caller.user.id ==>
              r == Responded(Send(403, Text("Forbidden")), products)
    // only the owner changes anything, and only that product
    ensures r.Responded? && r.products != products ==>
              productId in products && products[productId].user == caller.user.id
    // the owner's update is applied and answered 200 unless it raises
    ensures productId in products && products[productId].user == caller.user.id && r.Responded? ==>
              && r.response.status == 200
              && r.response.body == ProductDoc(Updated(products[productId], body))
              && r.products == (products - {productId})[body.fields.productId := Updated(products[productId], body)]
              && forall k :: k in products && k != productId && k != body.fields.productId ==> k in r.products && r.products[k] == products[k]
    // renaming onto another product's id violates the unique index, and nothing catches it
    ensures r.Raised? <==>
              productId in products && products[productId].user == caller.user.id
              && body.fields.productId != productId && body.fields.productId in products
  {
    if productId !in products then Responded(Send(404, Text("Not Found")), products)
    else
      var p := products[productId];
      if p.user != caller.user.id then Responded(Send(403, Text("Forbidden")), products)
      else
        var p' := Updated(p, body);
        if p'.productId != productId && p'.productId in products then
          Raised("E11000 duplicate key error: productId")
        else
          Responded(Send(200, ProductDoc(p')), (products - {productId})[p'.productId := p'])
  }

  /** `deleteProductHandler`: 404 before 403 before the deletion; the owner
      gets 201 with the product as it was. */
  function DeleteProduct(caller: Payload, productId: string, products: ProductStore): (r: Outcome)
    ensures r.Responded?
    ensures productId !in products ==> r == Responded(Send(404, Text("Not Found")), products)
    ensures productId in products && products[productId].user != caller.user.id ==>
              r == Responded(Send(403, Text("Forbidden")), products)
    ensures productId in products && products[productId].user == caller.user.id ==>
              && r.response == Send(201, ProductDoc(products[productId]))
              && r.products.Keys == products.Keys - {productId}
              && forall k :: k in r.products ==> r.products[k] == products[k]
  {
    if productId !in products then Responded(Send(404, Text("Not Found")), products)
    else if products[productId].user != caller.user.id then Responded(Send(403, Text("Forbidden")), products)
    else Responded(Send(201, ProductDoc(products[productId])), products - {productId})
  }

  /** A created product is found under its id, owned by its creator, whatever
      `user` the body carried. */
  lemma CreateThenGet(caller: Payload, body: ProductBody, products: ProductStore)
    requires body.fields.productId !in products
    ensures var r := CreateProduct(caller, body, products);
            GetProduct(body.fields.productId, r.products) == Send(200, r.response.body)
            && r.response.body.product.user == caller.user.id
  {
  }

  /** After its owner deletes it, a product is gone: lookup answers 404 and
      a second deletion answers 404 without touching the store. */
  lemma DeleteThenGet(caller: Payload, productId: string, products: ProductStore)
    requires productId in products && products[productId].user == caller.user.id
    ensures var after := DeleteProduct(caller, productId, products).products;
            GetProduct(productId, after).status == 404
            && DeleteProduct(caller, productId, after) == Responded(Send(404, Text("Not Found")), after)
  {
  }

  /** A caller who does not own a product can neither change nor delete it,
      nor any other product. */
  lemma NonOwnerChangesNothing(caller: Payload, productId: string, body: ProductBody, products: ProductStore)
    requires productId in products && products[productId].user != caller.user.id
    ensures UpdateProduct(caller, productId, body, products).products == products
    ensures DeleteProduct(caller, productId, products).products == products
  {
  }

  /** An owner's update that carries a `user` key hands the product over:
      the previous owner's next update is refused. */
  lemma UpdateCanReassignOwner(caller: Payload, other: Payload, productId: string, body: ProductBody, products: ProductStore)
    requires productId in products && products[productId].user == caller.user.id
    requires body.fields.productId == productId
    requires body.user == Some(other.user.id) && other.user.id != caller.user.id
    ensures var r := UpdateProduct(caller, productId, body, products);
            r.Responded? && r.products[productId].user == other.user.id
            && UpdateProduct(caller, productId, body, r.products) == Responded(Send(403, Text("Forbidden")), r.products)
  {
  }
}

=== FILE: product_schema.dfy ===
/** The product schemas: a shared body shape (`payload`), a shared route
    parameter shape (`params`), and the four compositions the product routes
    validate against. */
module ProductSchema {
  import opened Wrappers
  import opened Zod

  /** The product body as received. */
  datatype ProductFields = ProductFields(productId: Field, title: Field, description: Field, price: Field, image: Field)

  /** The route parameters as received. */
  datatype ParamFields = ParamFields(productId: Field)

  datatype ProductRequest = ProductRequest(body: ProductFields, params: ParamFields)

  /** The product body once it has passed the schema. */
  datatype ProductInput = ProductInput(productId: string, title: string, description: string, price: real, image: string)

  const DescriptionTooShort := "description should be at least 120 characters long."

  function BodyPath(field: string): seq<string> {
    ["body", field]
  }

  const ParamPath: seq<string> := ["params", "productId"]

  /** What `payload` accepts, stated directly: every field present, `price`
      a number, the others strings, and a description of at least 120
      characters. */
  predicate PayloadOk(b: ProductFields) {
    && b.productId.Present? && b.productId.value.JString?
    && b.title.Present? && b.title.value.JString?
    && b.description.Present? && b.description.value.JString? && Utf16Length(b.description.value.s) >= 120
    && b.price.Present? && b.price.value.JNumber?
    && b.image.Present? && b.image.value.JString?
  }

  /** The issues of `payload`, field by field in declaration order. */
  function PayloadIssues(b: ProductFields): (r: seq<Issue>)
    ensures r == [] <==> PayloadOk(b)
    ensures b.productId.Absent? ==> Issue(BodyPath("productId"), Required, "ProductId is required") in r
    ensures b.title.Absent? ==> Issue(BodyPath("title"), Required, "Title is required") in r
    ensures b.description.Absent? ==> Issue(BodyPath("description"), Required, "Description is required") in r
    ensures b.price.Absent? ==> Issue(BodyPath("price"), Required, "Price is required") in r
    ensures b.image.Absent? ==> Issue(BodyPath("image"), Required, "Image is required") in r
    ensures b.description.Present? && b.description.value.JString? && Utf16Length(b.description.value.s) < 120 ==>
              Issue(BodyPath("description"), TooSmall, DescriptionTooShort) in r
    ensures b.price.Present? && !b.price.value.JNumber? ==>
              Issue(BodyPath("price"), InvalidType, "Expected number, received " + TypeName(b.price.value)) in r
  {
    var descriptionChecks := [MinLength(120, DescriptionTooShort)];
    var description := StringIssues(BodyPath("description"), b.description, "Description is required", descriptionChecks);
    assert b.description.Present? && b.description.value.JString? && !Passes(b.description.value.s, descriptionChecks[0]) ==>
      CheckIssue(BodyPath("description"), descriptionChecks[0]) in description;
    StringIssues(BodyPath("productId"), b.productId, "ProductId is required", [])
    + StringIssues(BodyPath("title"), b.title, "Title is required", [])
    + description
    + NumberIssues(BodyPath("price"), b.price, "Price is required")
    + StringIssues(BodyPath("image"), b.image, "Image is required", [])
  }

  /** Five field issue lists, each at its own body path, concatenated in
      declaration order: at any path, only the lists sitting there are selected. */
  lemma FieldsSeparate(id: seq<Issue>, title: seq<Issue>, description: seq<Issue>, price: seq<Issue>, image: seq<Issue>,
                       path: seq<string>)
    requires forall k :: 0 <= k < |id| ==> id[k].path == BodyPath("productId")
    requires forall k :: 0 <= k < |title| ==> title[k].path == BodyPath("title")
    requires forall k :: 0 <= k < |description| ==> description[k].path == BodyPath("description")
    requires forall k :: 0 <= k < |price| ==> price[k].path == BodyPath("price")
    requires forall k :: 0 <= k < |image| ==> image[k].path == BodyPath("image")
    ensures IssuesAt(id + title + description + price + image, path) ==
              (if BodyPath("productId") == path then id else [])
              + (if BodyPath("title") == path then title else [])
              + (if BodyPath("description") == path then description else [])
              + (if BodyPath("price") == path then price else [])
              + (if BodyPath("image") == path then image else [])
  {
    IssuesAtConcat(id + title + description + price, image, path);
    IssuesAtConcat(id + title + description, price, path);
    IssuesAtConcat(id + title, description, path);
    IssuesAtConcat(id, title, path);
    IssuesAtPart(id, BodyPath("productId"), path);
    IssuesAtPart(title, BodyPath("title"), path);
    IssuesAtPart(description, BodyPath("description"), path);
    IssuesAtPart(price, BodyPath("price"), path);
    IssuesAtPart(image, BodyPath("image"), path);
  }

  /** Each body field is checked on its own: a field reports nothing exactly
      when it meets its own rule, whatever the other fields hold. */
  lemma PayloadIssuesPerField(b: ProductFields)
    ensures IssuesAt(PayloadIssues(b), BodyPath("productId")) == [] <==> b.productId.Present? && b.productId.value.JString?
    ensures IssuesAt(PayloadIssues(b), BodyPath("title")) == [] <==> b.title.Present? && b.title.value.JString?
    ensures IssuesAt(PayloadIssues(b), BodyPath("description")) == [] <==>
              b.description.Present? && b.description.value.JString? && Utf16Length(b.description.value.s) >= 120
    ensures IssuesAt(PayloadIssues(b), BodyPath("price")) == [] <==> b.price.Present? && b.price.value.JNumber?
    ensures IssuesAt(PayloadIssues(b), BodyPath("image")) == [] <==> b.image.Present? && b.image.value.JString?
  {
    var descriptionChecks := [MinLength(120, DescriptionTooShort)];
    var id := StringIssues(BodyPath("productId"), b.productId, "ProductId is required", []);
    var title := StringIssues(BodyPath("title"), b.title, "Title is required", []);
    var description := StringIssues(BodyPath("description"), b.description, "Description is required", descriptionChecks);
    var price := NumberIssues(BodyPath("price"), b.price, "Price is required");
    var image := StringIssues(BodyPath("image"), b.image, "Image is required", []);
    assert PayloadIssues(b) == id + title + description + price + image;
    assert BodyPath("productId")[1] == "productId" && BodyPath("title")[1] == "title";
    assert BodyPath("description")[1] == "description" && BodyPath("price")[1] == "price" && BodyPath("image")[1] == "image";
    assert StringOk(b.description, descriptionChecks) <==>
             b.description.Present? && b.description.value.JString? && Passes(b.description.value.s, descriptionChecks[0]);
    FieldsSeparate(id, title, description, price, image, BodyPath("productId"));
    FieldsSeparate(id, title, description, price, image, BodyPath("title"));
    FieldsSeparate(id, title, description, price, image, BodyPath("description"));
    FieldsSeparate(id, title, description, price, image, BodyPath("price"));
    FieldsSeparate(id, title, description, price, image, BodyPath("image"));
  }

  /** The issues of `params`. */
  function ParamsIssues(p: ParamFields): (r: seq<Issue>)
    ensures r == [] <==> p.productId.Present? && p.productId.value.JString?
    ensures p.productId.Absent? ==> r == [Issue(ParamPath, Required, "ProductId is required")]
    ensures forall k :: 0 <= k < |r| ==> r[k].path == ParamPath
  {
    StringIssues(ParamPath, p.productId, "ProductId is required", [])
  }

  /** `createProductSchema`: the body only. */
  function CreateProductIssues(req: ProductRequest): (r: seq<Issue>)
    ensures r == [] <==> PayloadOk(req.body)
  {
    PayloadIssues(req.body)
  }

  /** `updateProductSchema`: the body, then the route parameter. */
  function UpdateProductIssues(req: ProductRequest): (r: seq<Issue>)
    ensures r == [] <==> PayloadOk(req.body) && req.params.productId.Present? && req.params.productId.value.JString?
    ensures req.params.productId.Absent? ==> r[|r| - 1] == Issue(ParamPath, Required, "ProductId is required")
  {
    PayloadIssues(req.body) + ParamsIssues(req.params)
  }

  /** `deleteProductSchema`: the route parameter only. */
  function DeleteProductIssues(req: ProductRequest): (r: seq<Issue>)
    ensures r == [] <==> req.params.productId.Present? && req.params.productId.value.JString?
    ensures req.params.productId.Absent? ==> r == [Issue(ParamPath, Required, "ProductId is required")]
  {
    ParamsIssues(req.params)
  }

  /** `getProductSchema`: the route parameter only. */
  function GetProductIssues(req: ProductRequest): (r: seq<Issue>)
    ensures r == [] <==> req.params.productId.Present? && req.params.productId.value.JString?
    ensures req.params.productId.Absent? ==> r == [Issue(ParamPath, Required, "ProductId is required")]
  {
    ParamsIssues(req.params)
  }

  /** Creation looks at the body alone: the route parameter never changes its verdict. */
  lemma CreateIgnoresParams(req: ProductRequest, params: ParamFields)
    ensures CreateProductIssues(req.(params := params)) == CreateProductIssues(req)
    ensures CreateProductIssues(req) == [] <==> PayloadOk(req.body)
  {
  }

  /** Deletion and lookup look at the route parameter alone: any body, even
      an empty one, is accepted with a valid `productId` parameter. */
  lemma DeleteAndGetIgnoreBody(req: ProductRequest, body: ProductFields)
    ensures DeleteProductIssues(req.(body := body)) == DeleteProductIssues(req)
    ensures GetProductIssues(req.(body := body)) == GetProductIssues(req)
    ensures DeleteProductIssues(req) == [] <==> req.params.productId.Present? && req.params.productId.value.JString?
  {
  }

  /** An update passes exactly when the request would pass both creation
      and deletion, and its issues are the body's followed by the parameter's. */
  lemma UpdateIsCreateAndDelete(req: ProductRequest)
    ensures UpdateProductIssues(req) == [] <==> CreateProductIssues(req) == [] && DeleteProductIssues(req) == []
    ensures UpdateProductIssues(req) == CreateProductIssues(req) + DeleteProductIssues(req)
  {
  }

  /** The request body as the client sends a typed product. */
  function FieldsOf(p: ProductInput): ProductFields {
    ProductFields(Present(JString(p.productId)), Present(JString(p.title)), Present(JString(p.description)),
                  Present(JNumber(p.price)), Present(JString(p.image)))
  }

  /** The typed body, when `payload` accepts. */
  function ParseProduct(b: ProductFields): (r: Option<ProductInput>)
    ensures r.Some? <==> PayloadIssues(b) == []
    ensures r.Some? ==> FieldsOf(r.value) == b
  {
    if PayloadOk(b) then
      Some(ProductInput(b.productId.value.s, b.title.value.s, b.description.value.s, b.price.value.n, b.image.value.s))
    else None
  }

  /** Every product the schema's rules allow survives being sent and parsed. */
  lemma ParseProductRoundTrip(p: ProductInput)
    requires Utf16Length(p.description) >= 120
    ensures ParseProduct(FieldsOf(p)) == Some(p)
  {
  }
}

=== FILE: resolver.dfy ===
/** The per-request credential resolver (the `deserializeUser` middleware).

    It decides whether a request carries an identity. Token verification and
    re-issue are oracles passed in as functions: verification yields the
    decoded claims (when the token is valid and unexpired) and whether it
    failed by expiry; re-issue yields a new access token or nothing. */
module Resolver {
  import opened Wrappers
  import opened Domain
  import opened Http

  /** The parts of an incoming request the resolver reads: the `accessToken`
      cookie and the `authorization` and `x-refresh` headers. */
  datatype Request = Request(accessTokenCookie: Option<string>, authorization: Option<string>, refreshHeader: Option<string>)

  datatype Verification = Verification(decoded: Option<Payload>, expired: bool)

  /** What the middleware leaves behind: `res.locals.user`, the
      `x-access-token` header and `accessToken` cookie it set, how often it
      called `next()`, and (as a trace of the oracle calls) the tokens it
      verified in order and the refresh token it asked to re-issue from. */
  datatype Outcome = Outcome(
    user: Option<Payload>,
    setHeader: Option<string>,
    setCookie: Option<Cookie>,
    nextCalled: nat,
    verified: seq<string>,
    reissueFrom: Option<string>)

  /** The characters matched by `\s` in a JavaScript regular expression:
      white space and line terminators. */
  predicate IsRegexSpace(c: char) {
    var n := c as int;
    n == 0x09 || n == 0x0A || n == 0x0B || n == 0x0C || n == 0x0D || n == 0x20
    || n == 0xA0 || n == 0x1680 || (0x2000 <= n <= 0x200A)
    || n == 0x2028 || n == 0x2029 || n == 0x202F || n == 0x205F || n == 0x3000 || n == 0xFEFF
  }

  /** Whether `/^Bearer\s/` matches the header. */
  predicate HasBearerPrefix(h: string) {
    7 <= |h| && h[..6] == "Bearer" && IsRegexSpace(h[6])
  }

  /** The candidate access token: the cookie when it is non-empty, otherwise
      the `authorization` header (default `""`) with one leading
      `Bearer` and one white-space character removed. */
  function AccessToken(req: Request): (t: string)
    ensures Truthy(req.accessTokenCookie) ==> t == req.accessTokenCookie.value
    ensures !Truthy(req.accessTokenCookie) && HasBearerPrefix(req.authorization.GetOr("")) ==>
              req.authorization.GetOr("") == "Bearer" + [req.authorization.GetOr("")[6]] + t
    ensures !Truthy(req.accessTokenCookie) && !HasBearerPrefix(req.authorization.GetOr("")) ==>
              t == req.authorization.GetOr("")
  {
    if Truthy(req.accessTokenCookie) then req.accessTokenCookie.value
    else
      var h := req.authorization.GetOr("");
      if HasBearerPrefix(h) then h[7..] else h
  }

  /** The candidate refresh token: the `x-refresh` header, default `""`. */
  function RefreshToken(req: Request): string {
    req.refreshHeader.GetOr("")
  }

  /** The options of the cookie set after a silent re-issue. Unlike the
      login cookies, its `sameSite` is `strict` in every environment. */
  function ReissueCookieOptions(cfg: Config): CookieOptions {
    CookieOptions(900000, true, CookieDomain(cfg), "/", Strict, cfg.production)
  }

  /** Whether the resolver takes the refresh branch: a non-empty access token
      that does not decode but has expired, together with a non-empty
      refresh token. */
  predicate WantsReissue(req: Request, verify: string -> Verification) {
    var t := AccessToken(req);
    t != "" && verify(t).decoded.None? && verify(t).expired && RefreshToken(req) != ""
  }

  function Resolve(req: Request, cfg: Config, verify: string -> Verification, reIssue: string -> Option<string>): (o: Outcome)
    // every path calls next() exactly once
    ensures o.nextCalled == 1
    // no access token: nothing is verified, re-issued, set or attached
    ensures AccessToken(req) == "" ==>
              o.user.None? && o.setHeader.None? && o.setCookie.None? && o.verified == [] && o.reissueFrom.None?
    // otherwise the access token is the first thing verified
    ensures AccessToken(req) != "" ==> |o.verified| >= 1 && o.verified[0] == AccessToken(req)
    // a decodable access token is the identity, and no refresh is attempted
    ensures AccessToken(req) != "" && verify(AccessToken(req)).decoded.Some? ==>
              o.user == verify(AccessToken(req)).decoded && o.reissueFrom.None?
              && o.setHeader.None? && o.setCookie.None? && o.verified == [AccessToken(req)]
    // re-issue is asked for exactly on an expired access token with a refresh token
    ensures o.reissueFrom.Some? <==> WantsReissue(req, verify)
    ensures o.reissueFrom.Some? ==> o.reissueFrom.value == RefreshToken(req)
    // side effects happen exactly when re-issue produced a token
    ensures o.setHeader.Some? <==> WantsReissue(req, verify) && Truthy(reIssue(RefreshToken(req)))
    ensures o.setCookie.Some? <==> o.setHeader.Some?
    ensures o.setHeader.Some? ==>
              o.setHeader == reIssue(RefreshToken(req))
              && o.setCookie.value == Cookie("accessToken", o.setHeader.value, ReissueCookieOptions(cfg))
              && o.user == verify(o.setHeader.value).decoded
              && o.verified == [AccessToken(req), o.setHeader.value]
    ensures o.setCookie.Some? ==>
              o.setCookie.value.options.maxAge == 900000 && o.setCookie.value.options.httpOnly
              && o.setCookie.value.options.sameSite == Strict
    // an identity is attached only from a decodable access token or a re-issued one
    ensures o.user.Some? ==> AccessToken(req) != "" && (verify(AccessToken(req)).decoded.Some? || o.setHeader.Some?)
    // every attached identity was decoded from a token the resolver verified
    ensures o.user.Some? ==> exists k :: 0 <= k < |o.verified| && verify(o.verified[k]).decoded == o.user
  {
    var token := AccessToken(req);
    var refresh := RefreshToken(req);
    if token == "" then
      Outcome(None, None, None, 1, [], None)
    else
      var v := verify(token);
      if v.decoded.Some? then
        Outcome(v.decoded, None, None, 1, [token], None)
      else if v.expired && refresh != "" then
        var issued := reIssue(refresh);
        if Truthy(issued) then
          var cookie := Cookie("accessToken", issued.value, ReissueCookieOptions(cfg));
          var o := Outcome(verify(issued.value).decoded, Some(issued.value), Some(cookie), 1, [token, issued.value], Some(refresh));
          assert o.verified[1] == issued.value;
          o
        else
          Outcome(None, None, None, 1, [token], Some(refresh))
      else
        Outcome(None, None, None, 1, [token], None)
  }

  /** A `Bearer` header yields exactly the token after the prefix. */
  lemma BearerHeaderRoundTrip(t: string, space: char, cookie: Option<string>, refresh: Option<string>)
    requires IsRegexSpace(space)
    requires !Truthy(cookie)
    ensures AccessToken(Request(cookie, Some("Bearer" + [space] + t), refresh)) == t
  {
  }

  /** Only one leading prefix is removed: a doubled prefix leaves the second. */
  lemma BearerStrippedOnce(t: string, cookie: Option<string>, refresh: Option<string>)
    requires !Truthy(cookie)
    ensures AccessToken(Request(cookie, Some("Bearer " + "Bearer " + t), refresh)) == "Bearer " + t
  {
  }

  /** A token that fails verification without having expired (a tampered or
      malformed one) never triggers a re-issue and never yields an identity. */
  lemma TamperedTokenIsAnonymous(req: Request, cfg: Config, verify: string -> Verification, reIssue: string -> Option<string>)
    requires verify(AccessToken(req)).decoded.None? && !verify(AccessToken(req)).expired
    ensures Resolve(req, cfg, verify, reIssue).user.None?
    ensures Resolve(req, cfg, verify, reIssue).reissueFrom.None?
  {
  }

  /** An expired access token with no refresh token, or a re-issue that
      produced nothing, ends anonymous with no header and no cookie. */
  lemma FailedRefreshIsAnonymous(req: Request, cfg: Config, verify: string -> Verification, reIssue: string -> Option<string>)
    requires AccessToken(req) != "" && verify(AccessToken(req)).decoded.None?
    requires RefreshToken(req) == "" || !Truthy(reIssue(RefreshToken(req)))
    ensures Resolve(req, cfg, verify, reIssue).user.None?
    ensures Resolve(req, cfg, verify, reIssue).setHeader.None?
    ensures Resolve(req, cfg, verify, reIssue).setCookie.None?
  {
  }

  /** When the access token decodes, the refresh header plays no part. */
  lemma RefreshIgnoredForValidAccess(req: Request, refresh: Option<string>, cfg: Config, verify: string -> Verification, reIssue: string -> Option<string>)
    requires verify(AccessToken(req)).decoded.Some?
    ensures Resolve(req.(refreshHeader := refresh), cfg, verify, reIssue) == Resolve(req, cfg, verify, reIssue)
  {
  }

  /** The cookie set by a silent re-issue authenticates the client's next
      request with the same identity, without another re-issue, provided the
      new token still decodes. */
  lemma ReissuedCookieAuthenticatesNextRequest(req: Request, next: Request, cfg: Config, verify: string -> Verification, reIssue: string -> Option<string>)
    requires Resolve(req, cfg, verify, reIssue).setCookie.Some?
    requires next.accessTokenCookie == Some(Resolve(req, cfg, verify, reIssue).setCookie.value.value)
    requires verify(next.accessTokenCookie.value).decoded.Some?
    ensures Resolve(next, cfg, verify, reIssue).user == Resolve(req, cfg, verify, reIssue).user
    ensures Resolve(next, cfg, verify, reIssue).reissueFrom.None?
  {
  }
}

=== FILE: session_controller.dfy ===
/** The session controller: password login, session listing, logout, and
    the Google and Facebook OAuth callbacks.

    Token signing is an oracle `sign(payload, ttl)`; the provider calls are
    oracles that may fail (`None`); the outcome of the user upsert at the
    persistence layer is an input. */
module SessionController {
  import opened Wrappers
  import opened Domain
  import opened Http
  import Sessions
  import opened UserService
  import SessionSchema

  /** The options of the `accessToken` cookie set at login: 15 minutes,
      `httpOnly`, and the environment-dependent domain, `sameSite` and `secure`. */
  function AccessCookieOptions(cfg: Config): (o: CookieOptions)
    ensures o.maxAge == 900000 && o.httpOnly && o.path == "/"
    ensures o.domain == (if cfg.production then cfg.cookieDomain else "localhost")
    ensures o.sameSite == Strict <==> cfg.production
    ensures o.sameSite == Lax <==> !cfg.production
    ensures o.secure <==> cfg.production
  {
    CookieOptions(900000, true, CookieDomain(cfg), "/", if cfg.production then Strict else Lax, cfg.production)
  }

  /** The `refreshToken` cookie: the access cookie's options with a one-year maxAge. */
  function RefreshCookieOptions(cfg: Config): (o: CookieOptions)
    ensures o.maxAge == 31540000000
    ensures o.(maxAge := AccessCookieOptions(cfg).maxAge) == AccessCookieOptions(cfg)
  {
    AccessCookieOptions(cfg).(maxAge := 31540000000)
  }

  /** `req.get('user-agent') || ''`. */
  function UserAgentOf(header: Option<string>): string {
    header.GetOr("")
  }

  /** A login completed for `user`: exactly one new valid session for them
      with the request's user agent, and a token pair signed over the same
      claims (the user plus that session) that differ only in TTL, returned
      as the `accessToken` and `refreshToken` cookies. */
  ghost predicate LoggedIn(cookies: seq<Cookie>, s: SessionStore, s': SessionStore, user: UserDoc, userAgent: Option<string>, cfg: Config, sign: (Payload, string) -> string)
  {
    var claims := Payload(user, |s|);
    && |s'| == |s| + 1 && s'[..|s|] == s
    && s'[|s|] == Session(user.id, UserAgentOf(userAgent), true)
    && cookies == [Cookie("accessToken", sign(claims, cfg.accessTokenTtl), AccessCookieOptions(cfg)),
                   Cookie("refreshToken", sign(claims, cfg.refreshTokenTtl), RefreshCookieOptions(cfg))]
  }

  datatype Started = Started(sessions: SessionStore, cookies: seq<Cookie>, accessToken: string, refreshToken: string)

  /** The steps every successful login shares: create the session, sign
      both tokens, set both cookies. */
  function StartSession(user: UserDoc, userAgent: Option<string>, sessions: SessionStore, cfg: Config, sign: (Payload, string) -> string): (r: Started)
    ensures LoggedIn(r.cookies, sessions, r.sessions, user, userAgent, cfg, sign)
    ensures r.cookies[0].value == r.accessToken && r.cookies[1].value == r.refreshToken
  {
    var (sessions', id) := Sessions.Create(sessions, user.id, UserAgentOf(userAgent));
    var claims := Payload(user, id);
    var accessToken := sign(claims, cfg.accessTokenTtl);
    var refreshToken := sign(claims, cfg.refreshTokenTtl);
    Started(sessions', [Cookie("accessToken", accessToken, AccessCookieOptions(cfg)),
                        Cookie("refreshToken", refreshToken, RefreshCookieOptions(cfg))],
            accessToken, refreshToken)
  }

  /** `createSessionHandler`: password login. */
  function Login(body: SessionSchema.LoginBody, userAgent: Option<string>, users: UserStore, sessions: SessionStore,
                 cfg: Config, compare: (UserDoc, string) -> bool, sign: (Payload, string) -> string): (r: (Response, SessionStore))
    ensures r.0.status == 200 || r.0.status == 401
    // a failed password check: 401, no session, no cookies
    ensures r.0.status == 401 <==> ValidatePassword(users, body.email, body.password, compare).Rejected?
    ensures r.0.status == 401 ==> r.0 == Send(401, Text("Invalid email or password")) && r.1 == sessions
    // success: one session, two cookies, and the body carries the cookies' tokens
    ensures r.0.status == 200 ==>
              var u := ValidatePassword(users, body.email, body.password, compare).user;
              && LoggedIn(r.0.cookies, sessions, r.1, u, userAgent, cfg, sign)
              && u.email == body.email && u.password.None?
              && r.0.body == Tokens(Some(r.0.cookies[0].value), Some(r.0.cookies[1].value))
              && r.0.location.None?
  {
    match ValidatePassword(users, body.email, body.password, compare)
    case Rejected => (Send(401, Text("Invalid email or password")), sessions)
    case Accepted(u) =>
      var st := StartSession(u, userAgent, sessions, cfg, sign);
      (Response(200, Tokens(Some(st.accessToken), Some(st.refreshToken)), st.cookies, None), st.sessions)
  }

  /** `getUserSessionsHandler`: the caller's valid sessions. */
  function ListSessions(caller: Payload, sessions: SessionStore): (r: Response)
    ensures r.status == 200 && r.body.SessionList? && r.cookies == []
    ensures forall k :: 0 <= k < |r.body.entries| ==>
              var e := r.body.entries[k];
              e.id < |sessions| && sessions[e.id] == e.session && e.session.user == caller.user.id && e.session.valid
    ensures forall i :: 0 <= i < |sessions| && sessions[i].user == caller.user.id && sessions[i].valid ==>
              SessionEntry(i, sessions[i]) in r.body.entries
    // each session is listed once
    ensures forall k, l :: 0 <= k < l < |r.body.entries| ==> r.body.entries[k].id != r.body.entries[l].id
  {
    Send(200, SessionList(Sessions.Active(sessions, caller.user.id)))
  }

  /** `deleteSessionsHandler`: invalidates the caller's own session. The
      response body has null tokens; no cookie is cleared. */
  function Logout(caller: Payload, sessions: SessionStore): (r: (Response, SessionStore))
    ensures r.0 == Send(200, Tokens(None, None))
    ensures |r.1| == |sessions|
    ensures forall i :: 0 <= i < |sessions| && i != caller.session ==> r.1[i] == sessions[i]
    ensures caller.session < |sessions| ==>
              !r.1[caller.session].valid && r.1[caller.session] == sessions[caller.session].(valid := false)
  {
    (Send(200, Tokens(None, None)), Sessions.Invalidate(sessions, caller.session))
  }

  /** Logging out twice is the same as logging out once. */
  lemma LogoutIdempotent(caller: Payload, sessions: SessionStore)
    ensures Logout(caller, Logout(caller, sessions).1) == Logout(caller, sessions)
  {
    Sessions.InvalidateIdempotent(sessions, caller.session);
  }

  /** After logout the caller's session is no longer listed. */
  lemma LogoutEndsListing(caller: Payload, sessions: SessionStore)
    ensures forall k :: 0 <= k < |ListSessions(caller, Logout(caller, sessions).1).body.entries| ==>
              ListSessions(caller, Logout(caller, sessions).1).body.entries[k].id != caller.session
  {
  }

  /** A login's session is listed for its user until it is logged out. */
  lemma LoginThenList(body: SessionSchema.LoginBody, userAgent: Option<string>, users: UserStore, sessions: SessionStore,
                      cfg: Config, compare: (UserDoc, string) -> bool, sign: (Payload, string) -> string)
    requires Login(body, userAgent, users, sessions, cfg, compare, sign).0.status == 200
    ensures var u := ValidatePassword(users, body.email, body.password, compare).user;
            var s' := Login(body, userAgent, users, sessions, cfg, compare, sign).1;
            SessionEntry(|sessions|, Session(u.id, UserAgentOf(userAgent), true)) in ListSessions(Payload(u, |sessions|), s').body.entries
  {
  }

  /** The profile fields the Google callback uses; `verifiedEmail` is
      Google's `verified_email`. */
  datatype GoogleTokens = GoogleTokens(accessToken: string, idToken: string)
  datatype GoogleUser = GoogleUser(email: string, verifiedEmail: bool, name: string, picture: string)

  /** Facebook is asked for `id,name,email`; `email` is absent for accounts
      without one, and `picture` is not among the requested fields. */
  datatype FacebookTokens = FacebookTokens(accessToken: string)
  datatype FacebookUser = FacebookUser(email: Option<string>, name: string, picture: Option<string>)

  /** What the persistence layer made of the upsert: a document, `null`, or
      a thrown storage error. */
  datatype UpsertReply = Upserted | NullDocument | StoreUnavailable

  /** A callback either responds (with the stores after it) or its promise
      rejects with an error nothing catches. */
  datatype Flow = Responded(response: Response, users: UserStore, sessions: SessionStore) | Raised(reason: string)

  function ErrorUrl(cfg: Config): string {
    cfg.clientOrigin + "/oauth/error"
  }

  /** The steps both callbacks share after the email gate: upsert the user
      by email, reject a null document, then log in and redirect to the
      client. The session's claims carry the upserted document as stored. */
  function CompleteFederatedLogin(email: string, name: string, picture: Option<string>, userAgent: Option<string>,
                                  users: UserStore, sessions: SessionStore, cfg: Config, reply: UpsertReply,
                                  sign: (Payload, string) -> string): (r: Flow)
    ensures r.Raised? <==> reply == StoreUnavailable
    ensures reply == NullDocument ==> r == Responded(Send(403, Text("User not found")), users, sessions)
    ensures reply == Upserted ==>
              var (users', id) := Upsert(users, email, name, picture);
              && r.Responded? && r.users == users'
              && r.users[id].email == email
              && LoggedIn(r.response.cookies, sessions, r.sessions, DocAt(users', id), userAgent, cfg, sign)
              && r.response.status == 302 && r.response.location == Some(cfg.clientOrigin)
  {
    match reply
    case StoreUnavailable => Raised("storage error during user upsert")
    case NullDocument => Responded(Send(403, Text("User not found")), users, sessions)
    case Upserted =>
      var (users', id) := Upsert(users, email, name, picture);
      var st := StartSession(DocAt(users', id), userAgent, sessions, cfg, sign);
      Responded(Redirect(cfg.clientOrigin, st.cookies), users', st.sessions)
  }

  /** The Google profile obtained from the callback's code: the token
      exchange, then the profile fetch; `None` when either call fails. */
  function GoogleProfile(code: Option<string>, cfg: Config, exchange: Form -> Option<GoogleTokens>,
                         fetchUser: (string, string) -> Option<GoogleUser>): (p: Option<GoogleUser>)
    ensures exchange(TokenRequestForm(code, cfg.google)).None? ==> p.None?
    ensures exchange(TokenRequestForm(code, cfg.google)).Some? ==>
              var t := exchange(TokenRequestForm(code, cfg.google)).value;
              p == fetchUser(t.idToken, t.accessToken)
  {
    match exchange(TokenRequestForm(code, cfg.google))
    case None => None
    case Some(t) => fetchUser(t.idToken, t.accessToken)
  }

  /** `googleOauthHandler`. Every failure of a provider call or of the
      storage layer is caught and becomes a redirect to the error page. */
  function GoogleOauth(code: Option<string>, userAgent: Option<string>, users: UserStore, sessions: SessionStore, cfg: Config,
                       exchange: Form -> Option<GoogleTokens>, fetchUser: (string, string) -> Option<GoogleUser>,
                       reply: UpsertReply, sign: (Payload, string) -> string): (r: Flow)
    // never raises; always a redirect or a 403
    ensures r.Responded?
    ensures r.response.status == 302 || r.response.status == 403
    ensures r.response.status == 403 ==> r.users == users && r.sessions == sessions && r.response.cookies == []
    ensures r.response.status == 302 ==> r.response.location == Some(cfg.clientOrigin) || r.response.location == Some(ErrorUrl(cfg))
    // a failed provider call or storage error: error page, nothing stored
    ensures GoogleProfile(code, cfg, exchange, fetchUser).None? || (GoogleProfile(code, cfg, exchange, fetchUser).value.verifiedEmail && reply == StoreUnavailable) ==>
              r == Responded(Redirect(ErrorUrl(cfg), []), users, sessions)
    // an unverified email is rejected before any upsert or session
    ensures GoogleProfile(code, cfg, exchange, fetchUser).Some? && !GoogleProfile(code, cfg, exchange, fetchUser).value.verifiedEmail ==>
              r == Responded(Send(403, Text("Google account not verified")), users, sessions)
    // the stores change only on a verified profile and a successful upsert, which logs the user in
    ensures r.users != users || r.sessions != sessions || r.response.location == Some(cfg.clientOrigin) ==>
              GoogleProfile(code, cfg, exchange, fetchUser).Some? && GoogleProfile(code, cfg, exchange, fetchUser).value.verifiedEmail
              && reply == Upserted
    ensures GoogleProfile(code, cfg, exchange, fetchUser).Some? && GoogleProfile(code, cfg, exchange, fetchUser).value.verifiedEmail && reply != StoreUnavailable ==>
              var profile := GoogleProfile(code, cfg, exchange, fetchUser).value;
              r == CompleteFederatedLogin(profile.email, profile.name, Some(profile.picture), userAgent, users, sessions, cfg, reply, sign)
  {
    var failed := Responded(Redirect(ErrorUrl(cfg), []), users, sessions);
    match GoogleProfile(code, cfg, exchange, fetchUser)
    case None => failed
    case Some(g) =>
      if !g.verifiedEmail then Responded(Send(403, Text("Google account not verified")), users, sessions)
      else
        match CompleteFederatedLogin(g.email, g.name, Some(g.picture), userAgent, users, sessions, cfg, reply, sign)
        case Raised(_) => failed
        case done => done
  }

  /** The Facebook profile obtained from the callback's code: the token
      exchange, then the profile fetch; `None` when either call fails. */
  function FacebookProfile(code: Option<string>, cfg: Config, exchange: Form -> Option<FacebookTokens>,
                           fetchUser: string -> Option<FacebookUser>): (p: Option<FacebookUser>)
    ensures exchange(TokenRequestForm(code, cfg.facebook)).None? ==> p.None?
    ensures exchange(TokenRequestForm(code, cfg.facebook)).Some? ==>
              p == fetchUser(exchange(TokenRequestForm(code, cfg.facebook)).value.accessToken)
  {
    match exchange(TokenRequestForm(code, cfg.facebook))
    case None => None
    case Some(t) => fetchUser(t.accessToken)
  }

  /** `!facebookUser.email` is false: a profile was fetched and its email is non-empty. */
  predicate HasEmail(p: Option<FacebookUser>) {
    p.Some? && Truthy(p.value.email)
  }

  /** `facebookOauthHandler`. It has no catch: a failed provider call or a
      storage error rejects the handler's promise. A missing or empty email
      is rejected with the same text as the Google flow. */
  function FacebookOauth(code: Option<string>, userAgent: Option<string>, users: UserStore, sessions: SessionStore, cfg: Config,
                         exchange: Form -> Option<FacebookTokens>, fetchUser: string -> Option<FacebookUser>,
                         reply: UpsertReply, sign: (Payload, string) -> string): (r: Flow)
    // provider failures and storage errors propagate
    ensures r.Raised? <==> FacebookProfile(code, cfg, exchange, fetchUser).None? || (HasEmail(FacebookProfile(code, cfg, exchange, fetchUser)) && reply == StoreUnavailable)
    // a missing email is rejected before any upsert or session
    ensures FacebookProfile(code, cfg, exchange, fetchUser).Some? && !HasEmail(FacebookProfile(code, cfg, exchange, fetchUser)) ==>
              r == Responded(Send(403, Text("Google account not verified")), users, sessions)
    ensures r.Responded? ==> r.response.status == 302 || r.response.status == 403
    ensures r.Responded? && r.response.status == 403 ==> r.users == users && r.sessions == sessions && r.response.cookies == []
    // the stores change only when the profile has an email and the upsert succeeds
    ensures r.Responded? && (r.users != users || r.sessions != sessions || r.response.status == 302) ==>
              HasEmail(FacebookProfile(code, cfg, exchange, fetchUser)) && reply == Upserted && r.response.location == Some(cfg.clientOrigin)
    ensures HasEmail(FacebookProfile(code, cfg, exchange, fetchUser)) ==>
              var profile := FacebookProfile(code, cfg, exchange, fetchUser).value;
              r == CompleteFederatedLogin(profile.email.value, profile.name, profile.picture, userAgent, users, sessions, cfg, reply, sign)
  {
    match FacebookProfile(code, cfg, exchange, fetchUser)
    case None => Raised("failed to fetch the Facebook tokens or user")
    case Some(f) =>
      if !Truthy(f.email) then Responded(Send(403, Text("Google account not verified")), users, sessions)
      else CompleteFederatedLogin(f.email.value, f.name, f.picture, userAgent, users, sessions, cfg, reply, sign)
  }

  /** A login only appends a session. */
  lemma LoggedInIsSuccessor(cookies: seq<Cookie>, s: SessionStore, s': SessionStore, user: UserDoc, userAgent: Option<string>,
                            cfg: Config, sign: (Payload, string) -> string)
    requires LoggedIn(cookies, s, s', user, userAgent, cfg, sign)
    ensures Sessions.Successor(s, s')
  {
  }

  /** Neither login nor logout makes an invalid session valid again, deletes
      a session, or changes a session's owner. */
  lemma LoginLogoutNeverRevalidate(body: SessionSchema.LoginBody, caller: Payload, userAgent: Option<string>,
                                   users: UserStore, sessions: SessionStore, cfg: Config,
                                   compare: (UserDoc, string) -> bool, sign: (Payload, string) -> string)
    ensures Sessions.Successor(sessions, Login(body, userAgent, users, sessions, cfg, compare, sign).1)
    ensures Sessions.Successor(sessions, Logout(caller, sessions).1)
  {
  }

  /** The Google callback never makes an invalid session valid again,
      deletes a session, or changes a session's owner. */
  lemma GoogleNeverRevalidates(code: Option<string>, userAgent: Option<string>, users: UserStore, sessions: SessionStore, cfg: Config,
                               exchange: Form -> Option<GoogleTokens>, fetchUser: (string, string) -> Option<GoogleUser>,
                               reply: UpsertReply, sign: (Payload, string) -> string)
    ensures Sessions.Successor(sessions, GoogleOauth(code, userAgent, users, sessions, cfg, exchange, fetchUser, reply, sign).sessions)
  {
    var google := GoogleOauth(code, userAgent, users, sessions, cfg, exchange, fetchUser, reply, sign);
    if google.sessions != sessions {
      var profile := GoogleProfile(code, cfg, exchange, fetchUser).value;
      var (users', id) := Upsert(users, profile.email, profile.name, Some(profile.picture));
      LoggedInIsSuccessor(google.response.cookies, sessions, google.sessions, DocAt(users', id), userAgent, cfg, sign);
    }
  }

  /** The Facebook callback, when it responds, never makes an invalid session
      valid again, deletes a session, or changes a session's owner. */
  lemma FacebookNeverRevalidates(code: Option<string>, userAgent: Option<string>, users: UserStore, sessions: SessionStore, cfg: Config,
                                 exchange: Form -> Option<FacebookTokens>, fetchUser: string -> Option<FacebookUser>,
                                 reply: UpsertReply, sign: (Payload, string) -> string)
    ensures FacebookOauth(code, userAgent, users, sessions, cfg, exchange, fetchUser, reply, sign).Responded? ==>
              Sessions.Successor(sessions, FacebookOauth(code, userAgent, users, sessions, cfg, exchange, fetchUser, reply, sign).sessions)
  {
    var facebook := FacebookOauth(code, userAgent, users, sessions, cfg, exchange, fetchUser, reply, sign);
    if facebook.Responded? && facebook.sessions != sessions {
      var profile := FacebookProfile(code, cfg, exchange, fetchUser).value;
      var (users', id) := Upsert(users, profile.email.value, profile.name, profile.picture);
      LoggedInIsSuccessor(facebook.response.cookies, sessions, facebook.sessions, DocAt(users', id), userAgent, cfg, sign);
    }
  }
}

=== FILE: session_schema.dfy ===
/** `createSessionSchema`: the login body must carry a password of at least
    six characters and a well-formed email. */
module SessionSchema {
  import opened Wrappers
  import opened Zod

  /** The login request body as received. */
  datatype LoginFields = LoginFields(password: Field, email: Field)

  /** The login body once it has passed the schema. */
  datatype LoginBody = LoginBody(email: string, password: string)

  const PasswordPath: seq<string> := ["body", "password"]
  const EmailPath: seq<string> := ["body", "email"]

  const PasswordRequired := "Password is required"
  const PasswordTooShort := "Password is too short, should be a minimum of 6 characters"
  const EmailRequired := "Email is required"
  const EmailInvalid := "Not a valid email"

  /** What the schema accepts, stated directly. */
  predicate AcceptsLogin(body: LoginFields, isEmail: string -> bool) {
    && body.password.Present? && body.password.value.JString? && Utf16Length(body.password.value.s) >= 6
    && body.email.Present? && body.email.value.JString? && isEmail(body.email.value.s)
  }

  function CreateSessionIssues(body: LoginFields, isEmail: string -> bool): (r: seq<Issue>)
    ensures r == [] <==> AcceptsLogin(body, isEmail)
    ensures body.password.Absent? ==> Issue(PasswordPath, Required, PasswordRequired) in r
    ensures body.password.Present? && body.password.value.JString? && Utf16Length(body.password.value.s) < 6 ==>
              Issue(PasswordPath, TooSmall, PasswordTooShort) in r
    ensures body.password.Present? && body.password.value.JString? && Utf16Length(body.password.value.s) >= 6 ==>
              IssuesAt(r, PasswordPath) == []
    ensures body.email.Absent? ==> Issue(EmailPath, Required, EmailRequired) in r
    ensures body.email.Present? && body.email.value.JString? && !isEmail(body.email.value.s) ==>
              Issue(EmailPath, InvalidString, EmailInvalid) in r
    // each field is checked on its own: a field reports nothing exactly when it meets its rule
    ensures IssuesAt(r, PasswordPath) == [] <==>
              body.password.Present? && body.password.value.JString? && Utf16Length(body.password.value.s) >= 6
    ensures IssuesAt(r, EmailPath) == [] <==> body.email.Present? && body.email.value.JString? && isEmail(body.email.value.s)
  {
    var passwordChecks := [MinLength(6, PasswordTooShort)];
    var emailChecks := [EmailFormat(EmailInvalid, isEmail)];
    var p := StringIssues(PasswordPath, body.password, PasswordRequired, passwordChecks);
    var e := StringIssues(EmailPath, body.email, EmailRequired, emailChecks);
    assert body.password.Present? && body.password.value.JString? && !Passes(body.password.value.s, passwordChecks[0]) ==>
      CheckIssue(PasswordPath, passwordChecks[0]) in p;
    assert body.email.Present? && body.email.value.JString? && !Passes(body.email.value.s, emailChecks[0]) ==>
      CheckIssue(EmailPath, emailChecks[0]) in e;
    assert forall k :: 0 <= k < |e| ==> (p + e)[|p| + k] == e[k];
    FieldsSeparate(p, e);
    p + e
  }

  /** The password's issues followed by the email's: each field's issues
      are selected back unchanged. */
  lemma FieldsSeparate(p: seq<Issue>, e: seq<Issue>)
    requires forall k :: 0 <= k < |p| ==> p[k].path == PasswordPath
    requires forall k :: 0 <= k < |e| ==> e[k].path == EmailPath
    ensures IssuesAt(p + e, PasswordPath) == p && IssuesAt(p + e, EmailPath) == e
  {
    assert PasswordPath[1] != EmailPath[1];
    IssuesAtConcat(p, e, PasswordPath);
    IssuesAtConcat(p, e, EmailPath);
    IssuesAtPart(p, PasswordPath, PasswordPath);
    IssuesAtPart(p, PasswordPath, EmailPath);
    IssuesAtPart(e, EmailPath, PasswordPath);
    IssuesAtPart(e, EmailPath, EmailPath);
  }

  /** The request body as the client sends a typed login body. */
  function FieldsOf(b: LoginBody): LoginFields {
    LoginFields(Present(JString(b.password)), Present(JString(b.email)))
  }

  /** The typed body, when the schema accepts. */
  function ParseLogin(body: LoginFields, isEmail: string -> bool): (r: Option<LoginBody>)
    ensures r.Some? <==> CreateSessionIssues(body, isEmail) == []
    ensures r.Some? ==> FieldsOf(r.value) == body
  {
    if AcceptsLogin(body, isEmail) then Some(LoginBody(body.email.value.s, body.password.value.s)) else None
  }

  /** Every login body the schema's rules allow survives being sent and parsed. */
  lemma ParseLoginRoundTrip(b: LoginBody, isEmail: string -> bool)
    requires Utf16Length(b.password) >= 6 && isEmail(b.email)
    ensures ParseLogin(FieldsOf(b), isEmail) == Some(b)
  {
  }

  /** The minimum is inclusive: a six-character password passes the length
      rule and a five-character one fails it. */
  lemma PasswordLengthBoundary(password: string, email: Field, isEmail: string -> bool)
    requires InBmp(password)
    ensures |password| == 6 ==> IssuesAt(CreateSessionIssues(LoginFields(Present(JString(password)), email), isEmail), PasswordPath) == []
    ensures |password| == 5 ==> Issue(PasswordPath, TooSmall, PasswordTooShort) in CreateSessionIssues(LoginFields(Present(JString(password)), email), isEmail)
  {
    Utf16LengthOfBmp(password);
  }
}

=== FILE: session_store.dfy ===
/** The session collection as the controllers use it: create a session,
    list a user's valid sessions, and mark a session invalid.

    The persistence layer behind it is not part of this model; these are the
    effects the controllers ask of it. */
module Sessions {
  import opened Domain

  /** A new, valid session for `user`; its id is one no existing session has. */
  function Create(store: SessionStore, user: UserId, userAgent: string): (r: (SessionStore, SessionId))
    ensures |r.0| == |store| + 1 && r.0[..|store|] == store
    ensures r.1 == |store| && r.0[r.1] == Session(user, userAgent, true)
  {
    (store + [Session(user, userAgent, true)], |store|)
  }

  /** `updateSessions({_id: id}, {valid: false})`: the session with that id,
      if any, becomes invalid; every other session is unchanged. */
  function Invalidate(store: SessionStore, id: SessionId): (r: SessionStore)
    ensures |r| == |store|
    ensures forall i :: 0 <= i < |store| && i != id ==> r[i] == store[i]
    ensures id < |store| ==> r[id] == store[id].(valid := false)
  {
    if id < |store| then store[id := store[id].(valid := false)] else store
  }

  /** `findSessions({user, valid: true})`: the valid sessions of `user`, in
      creation order. */
  function Active(store: SessionStore, user: UserId): (r: seq<SessionEntry>)
    ensures forall k :: 0 <= k < |r| ==>
              r[k].id < |store| && store[r[k].id] == r[k].session && r[k].session.user == user && r[k].session.valid
    ensures forall i :: 0 <= i < |store| && store[i].user == user && store[i].valid ==> SessionEntry(i, store[i]) in r
    ensures forall k, l :: 0 <= k < l < |r| ==> r[k].id < r[l].id
    decreases |store|
  {
    if |store| == 0 then []
    else
      var n := |store| - 1;
      var rest := Active(store[..n], user);
      if store[n].user == user && store[n].valid then rest + [SessionEntry(n, store[n])] else rest
  }

  /** Sessions are never deleted, never change owner or agent, and an
      invalid session never becomes valid again. */
  ghost predicate Successor(s: SessionStore, s': SessionStore) {
    |s| <= |s'|
    && forall i :: 0 <= i < |s| ==>
         s'[i].user == s[i].user && s'[i].userAgent == s[i].userAgent && (s'[i].valid ==> s[i].valid)
  }

  lemma CreateIsSuccessor(store: SessionStore, user: UserId, userAgent: string)
    ensures Successor(store, Create(store, user, userAgent).0)
  {
  }

  lemma InvalidateIsSuccessor(store: SessionStore, id: SessionId)
    ensures Successor(store, Invalidate(store, id))
  {
  }

  /** Invalidating twice is the same as invalidating once. */
  lemma InvalidateIdempotent(store: SessionStore, id: SessionId)
    ensures Invalidate(Invalidate(store, id), id) == Invalidate(store, id)
  {
  }

  /** After invalidation the session is listed for no user, and every other
      valid session is still listed. */
  lemma InvalidatedNotListed(store: SessionStore, id: SessionId, user: UserId)
    ensures forall k :: 0 <= k < |Active(Invalidate(store, id), user)| ==> Active(Invalidate(store, id), user)[k].id != id
    ensures forall i :: 0 <= i < |store| && i != id && store[i].user == user && store[i].valid ==>
              SessionEntry(i, store[i]) in Active(Invalidate(store, id), user)
  {
  }
}

=== FILE: user_service.dfy ===
/** The user service: password validation, user creation, the OAuth upsert
    keyed by email, and the form body of the OAuth token request. */
module UserService {
  import opened Wrappers
  import opened Domain

  /** User `i` is the first whose email is `email` (what `findOne({email})` returns). */
  predicate IsFirstWithEmail(users: UserStore, email: string, i: nat) {
    i < |users| && users[i].email == email && forall j :: 0 <= j < i ==> users[j].email != email
  }

  /** No two users share an email. */
  predicate UniqueEmails(users: UserStore) {
    forall i, j :: 0 <= i < j < |users| ==> users[i].email != users[j].email
  }

  function FindByEmailFrom(users: UserStore, email: string, from: nat): (r: Option<UserId>)
    requires from <= |users|
    requires forall j :: 0 <= j < from ==> users[j].email != email
    ensures r.Some? ==> IsFirstWithEmail(users, email, r.value)
    ensures r.None? ==> forall j :: 0 <= j < |users| ==> users[j].email != email
    decreases |users| - from
  {
    if from == |users| then None
    else if users[from].email == email then Some(from)
    else FindByEmailFrom(users, email, from + 1)
  }

  /** `UserModel.findOne({email})`. */
  function FindByEmail(users: UserStore, email: string): (r: Option<UserId>)
    ensures r.Some? ==> IsFirstWithEmail(users, email, r.value)
    ensures r.None? ==> forall j :: 0 <= j < |users| ==> users[j].email != email
  {
    FindByEmailFrom(users, email, 0)
  }

  /** `omit(doc, 'password')`: the document without its password field. */
  function Omit(d: UserDoc): (r: UserDoc)
    ensures r.password.None?
    ensures r.(password := d.password) == d
  {
    d.(password := None)
  }

  datatype Validation = Rejected | Accepted(user: UserDoc)

  /** `validatePassword`: the password-stripped user when a user has the
      email and the password comparison (an oracle) accepts, else `false`. */
  function ValidatePassword(users: UserStore, email: string, password: string, compare: (UserDoc, string) -> bool): (r: Validation)
    ensures r.Accepted? <==> exists i :: IsFirstWithEmail(users, email, i) && compare(DocAt(users, i), password)
    ensures r.Accepted? ==> exists i :: IsFirstWithEmail(users, email, i) && r.user == Omit(DocAt(users, i))
    ensures r.Accepted? ==> r.user.email == email && r.user.password.None? && r.user.id < |users|
    ensures (forall j :: 0 <= j < |users| ==> users[j].email != email) ==> r.Rejected?
  {
    match FindByEmail(users, email)
    case None => Rejected
    case Some(i) =>
      var d := DocAt(users, i);
      if compare(d, password) then Accepted(Omit(d)) else Rejected
  }

  /** A registration request; `picture` is not part of it. */
  datatype NewUser = NewUser(email: string, name: string, password: string)

  datatype Creation = Created(user: UserDoc, users: UserStore) | Failed(reason: string)

  /** `createUser`: stores the user and returns it without its password. The
      unique email index makes a second user with the same email a storage
      error, which is rethrown. */
  function CreateUser(users: UserStore, input: NewUser): (r: Creation)
    ensures r.Failed? <==> exists i :: 0 <= i < |users| && users[i].email == input.email
    ensures r.Created? ==>
              |r.users| == |users| + 1 && r.users[..|users|] == users
              && r.users[|users|].password == Some(input.password)
              && r.user == Omit(DocAt(r.users, |users|))
              && r.user.email == input.email && r.user.name == input.name && r.user.password.None?
  {
    match FindByEmail(users, input.email)
    case Some(_) => Failed("E11000 duplicate key error: email")
    case None =>
      var users' := users + [User(input.email, input.name, None, Some(input.password))];
      Created(Omit(DocAt(users', |users|)), users')
  }

  /** `findOneAndUpdate({email}, {email, name, picture}, {upsert: true, new: true})`:
      updates the name and picture of the user with that email, or creates
      one; returns the store and the user's id. */
  function Upsert(users: UserStore, email: string, name: string, picture: Option<string>): (r: (UserStore, UserId))
    ensures |users| <= |r.0| && r.1 < |r.0|
    ensures r.0[r.1].email == email && r.0[r.1].name == name && r.0[r.1].picture == picture
    ensures forall i :: 0 <= i < |users| && i != r.1 ==> r.0[i] == users[i]
    ensures FindByEmail(users, email).Some? ==>
              r.1 == FindByEmail(users, email).value && |r.0| == |users| && r.0[r.1].password == users[r.1].password
    ensures FindByEmail(users, email).None? ==>
              r.1 == |users| && |r.0| == |users| + 1 && r.0[r.1].password.None?
  {
    match FindByEmail(users, email)
    case Some(i) => (users[i := users[i].(name := name, picture := picture)], i)
    case None => (users + [User(email, name, picture, None)], |users|)
  }

  /** The upsert never creates a second user for an email. */
  lemma UpsertKeepsEmailsUnique(users: UserStore, email: string, name: string, picture: Option<string>)
    requires UniqueEmails(users)
    ensures UniqueEmails(Upsert(users, email, name, picture).0)
  {
  }

  /** Repeating an upsert changes nothing further. */
  lemma UpsertIdempotent(users: UserStore, email: string, name: string, picture: Option<string>)
    ensures var (u1, id1) := Upsert(users, email, name, picture);
            Upsert(u1, email, name, picture) == (u1, id1)
  {
    var (u1, id1) := Upsert(users, email, name, picture);
    var (u2, id2) := Upsert(u1, email, name, picture);
    assert IsFirstWithEmail(u1, email, id1);
    assert id2 == id1;
    assert u2 == u1;
  }

  /** A form body: key/value pairs in order (what `qs.stringify` encodes). */
  type Form = seq<(string, string)>

  function Keys(f: Form): (ks: seq<string>)
    ensures |ks| == |f| && forall k :: 0 <= k < |f| ==> ks[k] == f[k].0
  {
    if f == [] then [] else [f[0].0] + Keys(f[1..])
  }

  /** The value of the first pair with key `key`. */
  function Lookup(f: Form, key: string): (r: Option<string>)
    ensures r.Some? ==> exists k :: 0 <= k < |f| && f[k] == (key, r.value) && forall j :: 0 <= j < k ==> f[j].0 != key
    ensures r.None? ==> forall k :: 0 <= k < |f| ==> f[k].0 != key
  {
    if f == [] then None
    else if f[0].0 == key then Some(f[0].1)
    else Lookup(f[1..], key)
  }

  lemma KeysCons(p: (string, string), f: Form)
    ensures Keys([p] + f) == [p.0] + Keys(f)
  {
    assert ([p] + f)[1..] == f;
  }

  lemma LookupCons(p: (string, string), f: Form, key: string)
    ensures Lookup([p] + f, key) == if p.0 == key then Some(p.1) else Lookup(f, key)
  {
    assert ([p] + f)[1..] == f;
  }

  /** The authorization-code token request of section 4.1.3 of RFC 6749, as
      both providers are sent it. An absent `code` (no `?code=` in the
      callback URL) is dropped by `qs.stringify`, as every `undefined` is. */
  function TokenRequestForm(code: Option<string>, client: OAuthClient): (f: Form)
    ensures Keys(f) == (if code.Some? then ["code"] else []) + ["client_id", "client_secret", "redirect_uri", "grant_type"]
    ensures Lookup(f, "code") == code
    ensures Lookup(f, "client_id") == Some(client.clientId)
    ensures Lookup(f, "client_secret") == Some(client.clientSecret)
    ensures Lookup(f, "redirect_uri") == Some(client.redirectUri)
    ensures Lookup(f, "grant_type") == Some("authorization_code")
  {
    var grant := [("grant_type", "authorization_code")];
    var redirect := [("redirect_uri", client.redirectUri)] + grant;
    var secret := [("client_secret", client.clientSecret)] + redirect;
    var rest := [("client_id", client.clientId)] + secret;
    KeysCons(("redirect_uri", client.redirectUri), grant);
    KeysCons(("client_secret", client.clientSecret), redirect);
    KeysCons(("client_id", client.clientId), secret);
    forall key | key in {"code", "client_id", "client_secret", "redirect_uri", "grant_type"}
      ensures Lookup(rest, key) == (if key == "client_id" then Some(client.clientId)
                                    else if key == "client_secret" then Some(client.clientSecret)
                                    else if key == "redirect_uri" then Some(client.redirectUri)
                                    else if key == "grant_type" then Some("authorization_code")
                                    else None)
    {
      LookupCons(("grant_type", "authorization_code"), [], key);
      LookupCons(("redirect_uri", client.redirectUri), grant, key);
      LookupCons(("client_secret", client.clientSecret), redirect, key);
      LookupCons(("client_id", client.clientId), secret, key);
    }
    match code
    case Some(c) =>
      KeysCons(("code", c), rest);
      LookupCons(("code", c), rest, "code");
      forall key | key in {"client_id", "client_secret", "redirect_uri", "grant_type"}
        ensures Lookup([("code", c)] + rest, key) == Lookup(rest, key)
      {
        LookupCons(("code", c), rest, key);
      }
      [("code", c)] + rest
    case None => rest
  }

  /** What a token endpoint reads back from the form. */
  datatype TokenRequest = TokenRequest(code: string, client: OAuthClient)

  function DecodeTokenRequest(f: Form): (r: Option<TokenRequest>)
    ensures r.Some? ==> Lookup(f, "grant_type") == Some("authorization_code")
  {
    match (Lookup(f, "grant_type"), Lookup(f, "code"), Lookup(f, "client_id"), Lookup(f, "client_secret"), Lookup(f, "redirect_uri"))
    case (Some(g), Some(c), Some(id), Some(secret), Some(uri)) =>
      if g == "authorization_code" then Some(TokenRequest(c, OAuthClient(id, secret, uri))) else None
    case _ => None
  }

  /** The endpoint recovers exactly the code and client that built the form;
      without a code the request is not a valid authorization-code request. */
  lemma TokenRequestRoundTrip(code: Option<string>, client: OAuthClient)
    ensures code.Some? ==> DecodeTokenRequest(TokenRequestForm(code, client)) == Some(TokenRequest(code.value, client))
    ensures code.None? ==> DecodeTokenRequest(TokenRequestForm(code, client)).None?
  {
  }
}

=== FILE: wrappers.dfy ===
/** The optional-value datatype used throughout the model for JavaScript's
    `undefined`/`null` and for oracles that may produce nothing. */
module Wrappers {

  datatype Option<+T> = None | Some(value: T) {

    /** The wrapped value, or `default` when there is none (lodash `get` with a default). */
    function GetOr(default: T): T {
      match this
      case Some(v) => v
      case None => default
    }
  }

  /** JavaScript truthiness of a possibly missing string: present and non-empty. */
  predicate Truthy(s: Option<string>) {
    s.Some? && s.value != ""
  }
}

=== FILE: zod.dfy ===
/** The fragment of zod's parsing semantics the request schemas use:
    required fields, string and number types, a minimum length and an email
    format check. Parsing collects every issue of every field, in the order
    the schema lists its fields. */
module Zod {

  /** A JSON value as it arrives in a request. */
  datatype Json = JString(s: string) | JNumber(n: real) | JBool(b: bool) | JNull | JArray | JObject

  /** A field of a request object: missing (`undefined`) or present. */
  datatype Field = Absent | Present(value: Json)

  datatype IssueKind = Required | InvalidType | TooSmall | InvalidString

  datatype Issue = Issue(path: seq<string>, kind: IssueKind, message: string)

  /** The checks chained onto `string()`: `.min(n, message)` and
      `.email(message)`; the email format itself is a predicate supplied by
      the caller. */
  datatype StringCheck = MinLength(minimum: nat, message: string) | EmailFormat(message: string, isEmail: string -> bool)

  /** The name zod reports for a value of the wrong type. */
  function TypeName(v: Json): string {
    match v
    case JString(_) => "string"
    case JNumber(_) => "number"
    case JBool(_) => "boolean"
    case JNull => "null"
    case JArray => "array"
    case JObject => "object"
  }

  /** JavaScript's `length`: characters outside the Basic Multilingual Plane
      count twice (UTF-16 code units). */
  function Utf16Length(s: string): (n: nat)
    ensures |s| <= n <= 2 * |s|
  {
    if s == [] then 0
    else (if s[0] as int > 0xFFFF then 2 else 1) + Utf16Length(s[1..])
  }

  predicate InBmp(s: string) {
    forall k :: 0 <= k < |s| ==> s[k] as int <= 0xFFFF
  }

  /** For text within the Basic Multilingual Plane, `length` is the number of characters. */
  lemma {:induction false} Utf16LengthOfBmp(s: string)
    requires InBmp(s)
    ensures Utf16Length(s) == |s|
  {
    if s != [] {
      assert InBmp(s[1..]) by {
        forall k | 0 <= k < |s[1..]| ensures s[1..][k] as int <= 0xFFFF {
          assert s[1..][k] == s[k + 1];
        }
      }
      Utf16LengthOfBmp(s[1..]);
    }
  }

  predicate Passes(s: string, c: StringCheck) {
    match c
    case MinLength(m, _) => Utf16Length(s) >= m
    case EmailFormat(_, isEmail) => isEmail(s)
  }

  function CheckIssue(path: seq<string>, c: StringCheck): Issue {
    match c
    case MinLength(_, message) => Issue(path, TooSmall, message)
    case EmailFormat(message, _) => Issue(path, InvalidString, message)
  }

  /** The issues of the failing checks, in order. */
  function CheckIssues(path: seq<string>, s: string, checks: seq<StringCheck>): (r: seq<Issue>)
    ensures forall k :: 0 <= k < |r| ==> r[k].path == path && (r[k].kind == TooSmall || r[k].kind == InvalidString)
    ensures r == [] <==> forall k :: 0 <= k < |checks| ==> Passes(s, checks[k])
    ensures forall k :: 0 <= k < |checks| && !Passes(s, checks[k]) ==> CheckIssue(path, checks[k]) in r
    // and nothing else: every issue belongs to a failing check
    ensures forall k :: 0 <= k < |r| ==> exists j :: 0 <= j < |checks| && !Passes(s, checks[j]) && r[k] == CheckIssue(path, checks[j])
  {
    if checks == [] then []
    else
      var rest := CheckIssues(path, s, checks[1..]);
      assert forall k :: 1 <= k < |checks| ==> checks[k] == checks[1..][k - 1];
      if Passes(s, checks[0]) then rest else [CheckIssue(path, checks[0])] + rest
  }

  /** Whether a field satisfies `string()` with the given checks. */
  predicate StringOk(f: Field, checks: seq<StringCheck>) {
    f.Present? && f.value.JString? && forall k :: 0 <= k < |checks| ==> Passes(f.value.s, checks[k])
  }

  /** `string({required_error})` followed by `checks`. */
  function StringIssues(path: seq<string>, f: Field, requiredMessage: string, checks: seq<StringCheck>): (r: seq<Issue>)
    ensures forall k :: 0 <= k < |r| ==> r[k].path == path
    ensures r == [] <==> StringOk(f, checks)
    ensures f.Absent? ==> r == [Issue(path, Required, requiredMessage)]
    ensures f.Present? && !f.value.JString? ==>
              r == [Issue(path, InvalidType, "Expected string, received " + TypeName(f.value))]
    ensures f.Present? && f.value.JString? ==>
              forall k :: 0 <= k < |checks| && !Passes(f.value.s, checks[k]) ==> CheckIssue(path, checks[k]) in r
    ensures f.Present? && f.value.JString? ==>
              forall k :: 0 <= k < |r| ==> exists j :: 0 <= j < |checks| && !Passes(f.value.s, checks[j]) && r[k] == CheckIssue(path, checks[j])
  {
    match f
    case Absent => [Issue(path, Required, requiredMessage)]
    case Present(JString(s)) => CheckIssues(path, s, checks)
    case Present(v) => [Issue(path, InvalidType, "Expected string, received " + TypeName(v))]
  }

  predicate NumberOk(f: Field) {
    f.Present? && f.value.JNumber?
  }

  /** `number({required_error})`. */
  function NumberIssues(path: seq<string>, f: Field, requiredMessage: string): (r: seq<Issue>)
    ensures forall k :: 0 <= k < |r| ==> r[k].path == path
    ensures r == [] <==> NumberOk(f)
    ensures f.Absent? ==> r == [Issue(path, Required, requiredMessage)]
    ensures f.Present? && !f.value.JNumber? ==>
              r == [Issue(path, InvalidType, "Expected number, received " + TypeName(f.value))]
  {
    match f
    case Absent => [Issue(path, Required, requiredMessage)]
    case Present(JNumber(_)) => []
    case Present(v) => [Issue(path, InvalidType, "Expected number, received " + TypeName(v))]
  }

  /** The issues reported at one field. */
  function IssuesAt(issues: seq<Issue>, path: seq<string>): (r: seq<Issue>)
    ensures forall k :: 0 <= k < |r| ==> r[k] in issues && r[k].path == path
    ensures forall k :: 0 <= k < |issues| && issues[k].path == path ==> issues[k] in r
  {
    if issues == [] then []
    else
      var rest := IssuesAt(issues[1..], path);
      assert forall k :: 1 <= k < |issues| ==> issues[k] == issues[1..][k - 1];
      if issues[0].path == path then [issues[0]] + rest else rest
  }

  /** Selecting one field's issues distributes over concatenation. */
  lemma {:induction false} IssuesAtConcat(a: seq<Issue>, b: seq<Issue>, path: seq<string>)
    ensures IssuesAt(a + b, path) == IssuesAt(a, path) + IssuesAt(b, path)
  {
    if a == [] {
      assert a + b == b;
    } else {
      assert (a + b)[1..] == a[1..] + b;
      IssuesAtConcat(a[1..], b, path);
    }
  }

  /** Issues that all sit at one path are all selected at that path and
      none at any other. */
  lemma {:induction false} IssuesAtPart(a: seq<Issue>, at: seq<string>, path: seq<string>)
    requires forall k :: 0 <= k < |a| ==> a[k].path == at
    ensures IssuesAt(a, path) == if at == path then a else []
  {
    if a != [] {
      IssuesAtPart(a[1..], at, path);
      assert a == [a[0]] + a[1..];
    }
  }
}
